=== FILE: README.md ===
# Multi-device Bluetooth heart-rate monitor — a Dafny model

This project models the two pieces of sequential logic behind a Node.js
monitor that scans for Bluetooth Low Energy heart-rate sensors, connects to
each one it finds, and streams their telemetry.

- **The per-device session** (`BluetoothHeartRateDevice`), in
  `heart_rate_device.dfy`. It covers:
  - the telemetry record and its defaults;
  - decoding the Heart Rate Measurement characteristic (0x2A37). Bit 0 of the
    flags byte picks an 8-bit or a 16-bit little-endian value, as in section
    3.1.1.1 of the Bluetooth Heart Rate Service specification v1.0;
  - validating the Battery Level characteristic (0x2A19) to 0..100, as in
    section 3.1 of the Battery Service specification v1.0;
  - normalising signal strength from [-100, -50] dBm to a percentage;
  - finding a characteristic by uuid, ignoring case;
  - removing trailing NULs from string reads;
  - the connect sequence, including the battery read whose bytes reach the
    battery listener;
  - disconnect requests, link drops and the disconnect handler.
- **The monitor** (`MultiDeviceBluetoothHeartRateMonitor`), in `monitor.dfy`.
  It is a record plus one transition function per event: start/stop scanning,
  start-scan outcomes, adapter state changes, discovery, notifications, link
  drops, wake and cleanup. Emitted events go to an output sequence `out`, and
  commands to the radio library go to a log `calls`.
- **Properties of the monitor**, in `monitor_properties.dfy`: an invariant
  that every event preserves, lemmas about the readiness gate and the
  registry, and the scenarios from the monitor's test file.
- **Helpers**: `text.dfy` holds case folding and substring search. `wrappers.dfy`
  holds `Option` and `Outcome`.

The adapter-readiness gate is a promise. `poweredOn` resolves it, and every
other adapter state replaces it with a fresh one. The model keeps a
generation number and a ready flag. A start attempt passes the guard
(`isScanning`, `initializedScanningRequest`) before it awaits the gate, and
the guard is never checked again. If the gate is closed, the attempt is
parked on the current generation. `poweredOn` releases that generation.
Attempts parked on an older generation wait forever, because their promise's
resolver has been overwritten.

Some consequences of the code are easy to miss:
- The code has no `pending` flag, so two start requests made before the
  first one settles issue two start commands
  (`DuplicateRequestsIssueTwoStarts`).
- `poweredOn` never calls `startScanning`. After a power cycle, scanning
  resumes only on a new request or a wake (`PowerCycleDoesNotResume`,
  `ParkedRequestLostAcrossReset`).
- Sessions live in a single `devices` map, and nothing reconnects them. A
  session whose link never comes up is reported and stays registered
  (`FailedLinkStaysRegistered`).
- The radio library hands a read's result to the characteristic's data
  listeners as well as to the reader. So the battery read at the end of
  `connect`, whose returned text is dropped, reaches the battery listener
  installed just before it. That listener stores the first battery level and
  emits a snapshot (`ConnectStoresFirstBatteryLevel`).
- Cleanup's own disconnect requests drop links, and each dropped link runs
  its session's disconnect listener while cleanup waits. So cleanup announces
  `deviceDisconnected` once for every listening session whose link drops, and
  only then empties the registry (`CleanupAnnouncesDrops`).

## Model

| member | source | states |
|---|---|---|
| Text.Contains | src/MultiDeviceBluetoothHeartRateMonitor.ts:99-102 | `includes` holds exactly when the substring occurs at some index of the message (checked against an existential reference definition) |
| Text.EqualsIgnoreCaseCharwise | src/BluetoothHeartRateDevice.ts:152-154 | two uuids are equal ignoring case iff they have the same length and agree character by character after lower-casing |
| HeartRateDevice.NewDevice | src/BluetoothHeartRateDevice.ts:27-36 | a new session has heart rate 0, rssi 0, no battery or device info, and the peripheral's id; its name is the local name, or "Unknown Device" when that is missing or empty |
| HeartRateDevice.NormalizeRssi | src/BluetoothHeartRateDevice.ts:38-47 | the percentage is always in 0..100 and equals the source's clamp formula evaluated over exact reals |
| HeartRateDevice.NormalizeRssiMonotone | src/BluetoothHeartRateDevice.ts:43-46 | a stronger raw signal never yields a smaller percentage |
| HeartRateDevice.NormalizeRssiAnchors | src/BluetoothHeartRateDevice.ts:41-46 | -100 dBm gives 0, -75 gives 50 and -50 gives 100; readings outside the range clamp to 0 or 100 |
| HeartRateDevice.SetRssi | src/BluetoothHeartRateDevice.ts:38-47 | a timer tick replaces only the rssi field, with the normalised percentage, and keeps the session valid |
| HeartRateDevice.ParseHeartRate | src/BluetoothHeartRateDevice.ts:198-205 | decoding succeeds exactly when the buffer is long enough for the format bit 0 selects; it gives `data[1]` (< 256) or little-endian `data[1..3]` (< 65536) |
| HeartRateDevice.ParseEncodeRoundTrip | src/BluetoothHeartRateDevice.ts:198-205 | decoding a measurement encoded in either format gives back the encoded value |
| HeartRateDevice.EncodeParseRoundTrip | src/BluetoothHeartRateDevice.ts:198-205 | every decodable buffer starts with the encoding of its decoded value, once the other flag bits are cleared |
| HeartRateDevice.ParseIgnoresOtherBits | src/BluetoothHeartRateDevice.ts:199-204 | flag bits other than bit 0, and any bytes after the value, never change the decoded value |
| HeartRateDevice.HandleHeartRateData | src/BluetoothHeartRateDevice.ts:189-196 | a decodable notification replaces only the heart rate and emits exactly one snapshot; a short buffer (which throws) changes nothing |
| HeartRateDevice.HandleBatteryData | src/BluetoothHeartRateDevice.ts:170-187 | an empty buffer changes nothing and emits nothing; a byte in 0..100 is stored; a larger byte leaves the session unchanged; a non-empty buffer emits exactly one snapshot |
| HeartRateDevice.FindCharacteristic | src/BluetoothHeartRateDevice.ts:148-155 | returns the first characteristic whose uuid equals the target ignoring case, and none exactly when no element matches |
| HeartRateDevice.FindIgnoresTargetCase | src/BluetoothHeartRateDevice.ts:152-154 | the lookup gives the same answer however the target uuid is cased |
| HeartRateDevice.StripTrailingNul | src/BluetoothHeartRateDevice.ts:163 | the result is a prefix of the input, does not end in NUL, and only NULs were removed |
| HeartRateDevice.StripTrailingNulIdempotent | src/BluetoothHeartRateDevice.ts:163 | stripping again changes nothing |
| HeartRateDevice.StripTrailingNulUnique | src/BluetoothHeartRateDevice.ts:163 | those three facts determine the stripped string uniquely |
| HeartRateDevice.ReadCharacteristic | src/BluetoothHeartRateDevice.ts:157-168 | a failed read yields undefined; a successful read yields its text without trailing NULs |
| HeartRateDevice.ReadIdentity | src/BluetoothHeartRateDevice.ts:128-140 | the manufacturer name and serial number each change exactly when their characteristic is present, to its read result, and nothing else changes |
| HeartRateDevice.ReadDeviceInfo | src/BluetoothHeartRateDevice.ts:111-146 | the manufacturer name and serial number change exactly when their characteristic is present, to its read result; when the battery listener is installed and the battery read succeeds, its bytes are handled as a battery notification (0..100 stored, one snapshot for a non-empty buffer); nothing else changes |
| HeartRateDevice.SetupCharacteristics | src/BluetoothHeartRateDevice.ts:71-146 | the two steps `connect` runs after discovery (lines 71-72): subscribing (lines 86-109) and reading device information (lines 111-146). A rejected heart-rate subscription rejects at once with its message, the session unchanged; a rejected battery subscription rejects with its message after the heart-rate subscription is in place; otherwise it subscribes to exactly the characteristics present, the identity reads store what `ReadIdentity` gives, and the session and emitted snapshots are exactly those of `ReadDeviceInfo` run on the subscribed session, so a delivered battery read is stored and re-emitted |
| HeartRateDevice.Connect | src/BluetoothHeartRateDevice.ts:60-146 | a link failure changes nothing; a discovery failure rejects with its message, leaving the session linked with the rssi timer and disconnect listener installed and otherwise as it was; once linked, the rssi timer and disconnect listener are installed; a rejected heart-rate subscription rejects with its message and leaves the linked session otherwise as it was; a rejected battery subscription rejects with its message but keeps the heart-rate subscription; a full success subscribes to exactly the heart-rate and battery characteristics present and stores the manufacturer name and serial number as read, ending with exactly the session and snapshots `ReadDeviceInfo` gives on the linked, subscribed session; identity, heart rate and rssi are never touched; at most one snapshot is emitted, none on failure, and the battery only changes to a percentage that snapshot carries |
| HeartRateDevice.ConnectStoresFirstBatteryLevel | src/BluetoothHeartRateDevice.ts:139-143 | with all subscriptions succeeding, a battery read returning a percentage makes it the first battery level and emits exactly one snapshot |
| HeartRateDevice.BatterySubscribeFailureKeepsHeartRate | src/BluetoothHeartRateDevice.ts:98-109 | when the battery subscription is rejected after the heart-rate one succeeded, connect rejects with the battery message but the heart-rate subscription stays, and no telemetry changes or events occur |
| HeartRateDevice.RequestDisconnect | src/BluetoothHeartRateDevice.ts:75-80 | a session without a live link, or whose request fails, is unchanged and emits nothing; when a connected session's link drops, only its link state changes, plus, with its listener installed, the stopped rssi timer, the consumed listener and exactly one disconnect with its id |
| HeartRateDevice.RequestDisconnectTwice | src/BluetoothHeartRateDevice.ts:75-80 | after a request has dropped the link, a second request does nothing |
| HeartRateDevice.LinkedSessionAnnouncesDisconnect | src/BluetoothHeartRateDevice.ts:60-80 | a session whose link came up announces its disconnection exactly once when disconnected, and its rssi timer stops |
| HeartRateDevice.LinkDropped | src/BluetoothHeartRateDevice.ts:66 | a reported link drop marks the link down; the one-shot listener, if installed, is consumed, stops the rssi timer and emits one disconnect; nothing else about the session changes |
| HeartRateDevice.HandleDisconnect | src/BluetoothHeartRateDevice.ts:207-214 | the rssi timer is cleared and the one-shot listener consumed, everything else (telemetry, peripheral, subscriptions) is unchanged, and one disconnect event carries the device id |
| Monitor.StartScanningDo | src/MultiDeviceBluetoothHeartRateMonitor.ts:38-48 | when already scanning or nothing was requested, nothing happens; an open gate issues one heart-rate start command; a closed gate parks the attempt on the current generation without issuing anything |
| Monitor.StartScanning | src/MultiDeviceBluetoothHeartRateMonitor.ts:28-31 | the request flag is set afterwards; nothing is issued while the gate is closed or while scanning |
| Monitor.ClassifyScanError | src/MultiDeviceBluetoothHeartRateMonitor.ts:98-112 | a message containing ENODEV gives the no-adapter error even if it also contains EPERM; otherwise EPERM gives the permission error; otherwise the original message |
| Monitor.StartSucceeded | src/MultiDeviceBluetoothHeartRateMonitor.ts:44-48 | a resolved start sets `isScanning` and settles one in-flight call |
| Monitor.StartFailed | src/MultiDeviceBluetoothHeartRateMonitor.ts:49-62 | a rejected start leaves `isScanning` alone and emits exactly one error event: the classified message, or the unknown-error message for a non-Error value |
| Monitor.StopScanning | src/MultiDeviceBluetoothHeartRateMonitor.ts:70-84 | nothing happens unless scanning; a stop command is issued and a success clears `isScanning`, while a failure leaves it set |
| Monitor.ReleaseWaiters | src/MultiDeviceBluetoothHeartRateMonitor.ts:140-145 | resolving the gate opens it and turns every attempt parked on the current generation into one start command; other generations stay parked |
| Monitor.HandleStateChange | src/MultiDeviceBluetoothHeartRateMonitor.ts:136-150 | every state is announced and the registry and request flag are untouched; `poweredOn` also announces readiness and leaves the gate resolved, releasing the current generation's parked attempts when it was not resolved yet and changing nothing else when it was; any other state installs a new unresolved generation and stops a running scan |
| Monitor.HandleDiscovery | src/MultiDeviceBluetoothHeartRateMonitor.ts:156-182 | a non-connectable or already registered peripheral changes nothing; a new connectable id adds exactly that entry; it emits deviceConnected, then the snapshot the connect emitted if any, then the connect error if it failed |
| Monitor.HandleDeviceDisconnect | src/MultiDeviceBluetoothHeartRateMonitor.ts:198-204 | a registered id is removed and announced once; an unknown id changes nothing |
| Monitor.Relay | src/MultiDeviceBluetoothHeartRateMonitor.ts:175-191 | forwarding a session's events never touches the scan state, gate, waiters or command log and can only remove registry entries; one snapshot is re-emitted as one data event, and one disconnect is exactly `handleDeviceDisconnect` on the registration id |
| Monitor.HandleWake | src/MultiDeviceBluetoothHeartRateMonitor.ts:231-236 | waking changes nothing unless scanning was requested, and is then a fresh start request |
| Monitor.OnPeripheralDisconnected | src/MultiDeviceBluetoothHeartRateMonitor.ts:175-204 | a link drop on an unknown id changes nothing; a session with its listener installed is removed and deviceDisconnected is emitted once; without a listener only its link state changes |
| Monitor.OnRssiTick | src/BluetoothHeartRateDevice.ts:62-65 | a tick updates the rssi of the session under the id, exactly as `SetRssi` does, only while its timer runs; otherwise nothing changes |
| Monitor.DisconnectOne | src/MultiDeviceBluetoothHeartRateMonitor.ts:274-288 | a cleanup disconnect whose link drops is exactly a reported link drop for a connected session, and changes nothing otherwise |
| Monitor.DisconnectAll | src/MultiDeviceBluetoothHeartRateMonitor.ts:274-290 | the dropped links touch only the registry and the output; entries only disappear or lose their live link, and output is only appended |
| Monitor.HandleCleanup | src/MultiDeviceBluetoothHeartRateMonitor.ts:269-295 | the registry ends empty; a stop is issued if scanning; one concurrent disconnect batch goes to exactly the sessions whose link is up; the gate, waiters and request flag are untouched and output is only appended |
| Monitor.Init | src/MultiDeviceBluetoothHeartRateMonitor.ts:10-26 | a new monitor is not scanning, has nothing requested, a generation-0 gate not yet resolved, no parked attempts, no start call in flight, an empty registry, and has emitted and called nothing |
| MonitorProperties.WakeAtStartIsNoOp | src/MultiDeviceBluetoothHeartRateMonitor.ts:231-236 | a wake before any request leaves a new monitor exactly as it was |
| MonitorProperties.InitInv | src/MultiDeviceBluetoothHeartRateMonitor.ts:10-26 | the freshly constructed monitor satisfies the invariant |
| MonitorProperties.StepPreservesInv | src/MultiDeviceBluetoothHeartRateMonitor.ts:28-204 | every event preserves the invariant: waiters sit on current or older generations and never on a resolved one; waiting or in-flight starts imply a request; every start command is the heart-rate scan; each session is valid and stored under its own id |
| MonitorProperties.RunPreservesInv | src/MultiDeviceBluetoothHeartRateMonitor.ts:28-204 | the invariant holds after any sequence of events |
| MonitorProperties.ScanRequestSticky | src/MultiDeviceBluetoothHeartRateMonitor.ts:28-31 | after any event the request flag is set iff it was set before or the event is a start request: no handler clears it |
| MonitorProperties.RunKeepsScanRequest | src/MultiDeviceBluetoothHeartRateMonitor.ts:15 | once requested, scanning stays requested through any sequence of events |
| MonitorProperties.WakeRestartsOnlyRequested | src/MultiDeviceBluetoothHeartRateMonitor.ts:231-236 | waking is a no-op without a prior request and is exactly a start request with one |
| MonitorProperties.StepStarts | src/MultiDeviceBluetoothHeartRateMonitor.ts:38-48 | the command log only grows, and each event adds exactly the number of start commands an independent count predicts: one per request that passes the guard at an open gate, the parked count on `poweredOn`, none otherwise |
| MonitorProperties.NoStartWhileGateClosed | src/MultiDeviceBluetoothHeartRateMonitor.ts:39-40 | no event issues a start command and leaves the gate closed |
| MonitorProperties.ClosedGateIssuesNothing | src/MultiDeviceBluetoothHeartRateMonitor.ts:40-47 | from a closed gate, any sequence of events without `poweredOn` issues no start command and leaves the gate closed |
| MonitorProperties.PowerOnReleasesCurrentGeneration | src/MultiDeviceBluetoothHeartRateMonitor.ts:136-145 | `poweredOn` on a closed gate opens it, emits the state change then adapterReady, and issues one start per attempt parked on the current generation |
| MonitorProperties.OtherStateClosesGate | src/MultiDeviceBluetoothHeartRateMonitor.ts:146-149 | any other state installs a new unresolved generation and then stops a running scan |
| MonitorProperties.GenerationMonotone | src/MultiDeviceBluetoothHeartRateMonitor.ts:301-305 | the gate generation never decreases |
| MonitorProperties.StaleWaitersStayParked | src/MultiDeviceBluetoothHeartRateMonitor.ts:301-305 | no event releases an attempt parked on a replaced gate |
| MonitorProperties.StaleWaitersStayParkedForever | src/MultiDeviceBluetoothHeartRateMonitor.ts:301-305 | attempts parked on a replaced gate stay parked through any sequence of events |
| MonitorProperties.StartGuard | src/MultiDeviceBluetoothHeartRateMonitor.ts:39 | a request while scanning only sets the flag; a wake with nothing requested changes nothing |
| MonitorProperties.StartOutcomes | src/MultiDeviceBluetoothHeartRateMonitor.ts:44-62 | a success sets `isScanning`; a failure keeps it, issues nothing, and emits exactly one error |
| MonitorProperties.StopThenStopIsNoOp | src/MultiDeviceBluetoothHeartRateMonitor.ts:70-80 | after a successful stop the monitor is not scanning, and a second stop changes nothing |
| MonitorProperties.ScanErrorExamples | src/MultiDeviceBluetoothHeartRateMonitor.ts:98-112 | ENODEV wins over EPERM; EPERM alone gives the permission message; other messages pass through |
| MonitorProperties.RepeatedDiscoveryIsIgnored | src/MultiDeviceBluetoothHeartRateMonitor.ts:156-163 | a second advertisement for a registered id changes nothing, so each id is registered and announced once |
| MonitorProperties.HeartRateNotificationForwarded | src/MultiDeviceBluetoothHeartRateMonitor.ts:189-191 | a decodable heart-rate notification to a subscribed session stores the value and is re-emitted once as a data event |
| Monitor.OnHeartRate | src/BluetoothHeartRateDevice.ts:189-205 | a heart-rate buffer for an unknown or unsubscribed session, or too short for its format, changes nothing; otherwise the parsed rate replaces that session's heart rate, nothing else in the registry changes, and exactly one snapshot of the updated session is emitted |
| Monitor.OnBattery | src/BluetoothHeartRateDevice.ts:170-187 | a battery buffer for an unknown or unsubscribed session, or an empty one, changes nothing; otherwise exactly one snapshot is emitted, carrying the first byte as the new battery level when it is at most 100 and the unchanged session when it is larger |
| MonitorProperties.UnusableBatteryIgnored | src/BluetoothHeartRateDevice.ts:170-174 | an empty battery buffer, or one for an unknown or unsubscribed session, leaves the monitor exactly as it was |
| MonitorProperties.UnusableHeartRateIgnored | src/BluetoothHeartRateDevice.ts:189-205 | a short heart-rate buffer, or one for an unknown or unsubscribed session, changes nothing |
| MonitorProperties.BatteryNotificationForwarded | src/BluetoothHeartRateDevice.ts:170-187 | a non-empty battery notification is re-emitted once; only 0..100 is stored, and a larger value leaves the registry unchanged |
| MonitorProperties.RssiTickUpdatesOnlyRunningTimers | src/BluetoothHeartRateDevice.ts:62-65 | a tick for a session with a running timer sets its rssi to the normalised reading and leaves every other session, the output and the command log alone; any other tick changes nothing |
| MonitorProperties.StoppedTimerIgnoresTicks | src/BluetoothHeartRateDevice.ts:209-212 | once the disconnect handler has cleared a session's interval, whether through a link drop or a disconnect request, ticks for it change nothing |
| MonitorProperties.RadioScanEventsRelayed | src/MultiDeviceBluetoothHeartRateMonitor.ts:125-126 | the radio's scanStart and scanStop are re-emitted unchanged and nothing else changes |
| MonitorProperties.PartialSubscriptionKeepsStreaming | src/MultiDeviceBluetoothHeartRateMonitor.ts:170-182 | a sensor whose battery subscription is rejected is announced, then reported as an error, stays registered with its heart-rate subscription, and its heart-rate notifications are still forwarded |
| MonitorProperties.DeviceDisconnectIdempotent | src/MultiDeviceBluetoothHeartRateMonitor.ts:198-204 | handling a device's disconnect twice has the same effect as once, and the id is gone afterwards |
| MonitorProperties.LinkDropRemovesListenedDevice | src/MultiDeviceBluetoothHeartRateMonitor.ts:175-177 | a link drop on a session with its listener installed removes it and emits deviceDisconnected once |
| MonitorProperties.FailedLinkStaysRegistered | src/MultiDeviceBluetoothHeartRateMonitor.ts:170-182 | a session whose link never comes up is announced, then reported as an error, and stays registered even after a link drop |
| MonitorProperties.CleanupEmptiesRegistry | src/MultiDeviceBluetoothHeartRateMonitor.ts:269-295 | cleanup empties the registry and sends disconnects only to registered sessions whose link is up |
| MonitorProperties.DisconnectOneEffect | src/MultiDeviceBluetoothHeartRateMonitor.ts:274-288 | one dropped link announces and removes a listening session, leaves every other session as it was, and leaves a non-listening one still not listening |
| MonitorProperties.DisconnectAllEmitsAnnouncements | src/MultiDeviceBluetoothHeartRateMonitor.ts:274-290 | everything the dropped links emit is deviceDisconnected for a listening session among them, which has left the registry |
| MonitorProperties.DisconnectAllAnnouncesEvery | src/MultiDeviceBluetoothHeartRateMonitor.ts:274-290 | every listening session whose link drops is announced |
| MonitorProperties.DisconnectAllAnnouncesOnce | src/MultiDeviceBluetoothHeartRateMonitor.ts:274-290 | no session is announced twice, even when its link is reported dropped twice |
| MonitorProperties.CleanupAnnouncesDrops | src/MultiDeviceBluetoothHeartRateMonitor.ts:269-295 | cleanup emits deviceDisconnected for exactly the listening sessions whose link drops, each once, and nothing else |
| MonitorProperties.PowerOnThenRequest | src/MultiDeviceBluetoothHeartRateMonitor.test.ts:25-63 | the test's stated intent (its radio's event registration is replaced by a stub, lines 18-23, and it opens the gate by hand, line 42): with the adapter powered on first, a request issues one start command with filter ["180D"] and duplicates allowed, and a success sets scanning |
| MonitorProperties.RequestBeforePowerOn | src/MultiDeviceBluetoothHeartRateMonitor.test.ts:65-102 | a request before `poweredOn` issues nothing, is not scanning and is parked; `poweredOn` then issues the start command |
| MonitorProperties.DuplicateRequestsIssueTwoStarts | src/MultiDeviceBluetoothHeartRateMonitor.ts:38-48 | two requests at an open gate before any outcome issue two start commands |
| MonitorProperties.ParkedRequestLostAcrossReset | src/MultiDeviceBluetoothHeartRateMonitor.ts:301-305 | a request parked before `poweredOff` stays parked after the following `poweredOn`, and no start command is issued |
| MonitorProperties.PowerCycleDoesNotResume | src/MultiDeviceBluetoothHeartRateMonitor.ts:136-150 | a power cycle stops a running scan, and `poweredOn` alone does not restart it |

## Left out

- Radio library calls are not modelled. These are connect, service discovery,
  subscribe, read, start/stop scan, disconnect and rssi refresh. Their
  outcomes are parameters of the events, or entries in the `calls` log.
- A start-scan outcome is its own event and settles one in-flight call. Such
  an event is ignored when no call is in flight.
- Stopping a scan and connecting a device are treated as finishing within the
  event that starts them. So no other event is interleaved while a device's
  connect is pending.
- Process plumbing is not modelled: signal wiring, `process.exit`, and the
  uncaught-exception and unhandled-rejection hooks. A heart-rate buffer too
  short for its format throws out of the listener and reaches those hooks.
  The model only records that the notification changes nothing.
- Timers are flags. The per-device rssi interval is `rssiTimer` plus the
  `RssiTick` event, whose argument is the peripheral's current rssi. The
  monitor's `scanInterval` is never assigned a timer in the source, so
  clearing it has no effect and the model has no field for it.
- EventEmitter dispatch is replaced by the `out` sequence. The ISO timestamp
  added to forwarded data events is dropped.
- Data events from a session that has already left the registry are not
  modelled. The source's listeners would still forward them.
- Cleanup's disconnects run concurrently (`Promise.all`). The model records
  the requests as one batch. The `Cleanup` event lists the links the radio
  drops, in the order it reports them; a request that fails drops nothing
  and is left out of that list. Other events that arrive while cleanup is
  waiting are not interleaved.
- A characteristic read yields its raw bytes and their text decoding. The
  UTF-8 decoding itself is not modelled: both arrive together as the read's
  outcome.
- The delivery of a read's result to the characteristic's data listeners is
  behaviour of the radio library, which is not part of this model. The model
  takes it as given for the battery read.
- HeartRateDevice.NormalizeRssi: exact integer arithmetic stands in for IEEE
  doubles. For some readings the source's float result is off by one ulp
  (-93 dBm gives 14.000000000000002). An undefined rssi, which would give
  NaN, is not modelled.
- Text.Lower: only ASCII letters are lower-cased. `toLowerCase` folds all of
  Unicode, but the uuids compared are hexadecimal.
- `getDeviceInfo` returns a copy of the telemetry record. With immutable
  values, `Device.data` is already that copy.
- `getConnectedDevices` only lists the map's values, so it is not modelled.
- The discovered/connected split, the staleness sweeper, `forceAwake` and
  reconnection after a missed disconnect are not in this code, so they are
  not modelled.

=== FILE: heart_rate_device.dfy ===
/**
 * One heart-rate sensor session: its telemetry record, the decoding of the
 * Heart Rate Measurement (0x2A37) and Battery Level (0x2A19) payloads, signal
 * strength normalisation, characteristic lookup, device-information reads and
 * the connect / disconnect steps. Radio calls are not made here: their
 * outcomes arrive as parameters.
 */
module HeartRateDevice {
  import opened Wrappers
  import Text

  /** An unsigned byte of a notification payload. */
  type Byte = x: int | 0 <= x < 256

  const HeartRateServiceUuid: string := "180D"
  const HeartRateMeasurementUuid: string := "2A37"
  const BatteryServiceUuid: string := "180F"
  const BatteryLevelUuid: string := "2A19"
  const DeviceInformationServiceUuid: string := "180A"
  const ManufacturerNameUuid: string := "2A29"
  const SerialNumberUuid: string := "2A25"

  const UnknownDeviceName: string := "Unknown Device"

  /** The signal-strength range, in dBm, mapped onto 0..100 percent. */
  const MinRssi: int := -100
  const MaxRssi: int := -50

  /** The radio library's view of a peripheral's link. */
  datatype LinkState = Disconnected | Connecting | Connected | Disconnecting | LinkError

  /** What the radio library reports about a peripheral when it is discovered. */
  datatype Peripheral = Peripheral(id: string, localName: Option<string>, connectable: bool, state: LinkState)

  /** The result a characteristic read yields: the raw bytes together with their decoding as text, or a failure. */
  datatype ReadOutcome = ReadOk(raw: seq<Byte>, text: string) | ReadFailed(message: string)

  /** A discovered GATT characteristic, with the outcomes its subscribe and read calls would have. */
  datatype Characteristic = Characteristic(uuid: string, subscribe: Outcome, read: ReadOutcome)

  /** The outcome of the radio part of `connect`: the link fails, service discovery fails, or the characteristics arrive. */
  datatype ConnectOutcome =
    | LinkFailed(message: string)
    | DiscoveryFailed(message: string)
    | Discovered(characteristics: seq<Characteristic>)

  /** The telemetry snapshot a session keeps and emits. */
  datatype DeviceData = DeviceData(
    heartRate: nat,
    battery: Option<nat>,
    deviceId: string,
    manufacturerName: Option<string>,
    serialNumber: Option<string>,
    deviceName: string,
    rssi: int)

  /** A session: the peripheral handle, the telemetry, and which timers and listeners are installed. */
  datatype Device = Device(
    peripheral: Peripheral,
    data: DeviceData,
    rssiTimer: bool,
    disconnectListener: bool,
    heartRateSubscribed: bool,
    batterySubscribed: bool)

  /** What a session emits: a telemetry snapshot, or its own disconnection. */
  datatype DeviceEvent = Data(snapshot: DeviceData) | Disconnect(deviceId: string)

  datatype DeviceStep = DeviceStep(device: Device, events: seq<DeviceEvent>)

  /**
   * `connect` keeps whatever it set up before a failure; `events` is what the
   * session emitted while connecting, and `failure` the error it rejects with, if any.
   */
  datatype ConnectResult = ConnectResult(device: Device, events: seq<DeviceEvent>, failure: Option<string>)

  /** The facts every session keeps: its id is its peripheral's, and every stored reading is in range. */
  predicate Valid(d: Device) {
    && d.data.deviceId == d.peripheral.id
    && 0 <= d.data.rssi <= 100
    && d.data.heartRate < 65536
    && (d.data.battery.Some? ==> d.data.battery.value <= 100)
  }

  /** A session created for a freshly discovered peripheral. */
  function NewDevice(p: Peripheral): (d: Device)
    ensures Valid(d)
    ensures d.data.heartRate == 0 && d.data.rssi == 0 && d.data.deviceId == p.id
    ensures d.data.battery.None? && d.data.manufacturerName.None? && d.data.serialNumber.None?
    ensures p.localName.Some? && p.localName.value != "" ==> d.data.deviceName == p.localName.value
    ensures p.localName.None? || p.localName == Some("") ==> d.data.deviceName == UnknownDeviceName
    ensures d.peripheral == p
    ensures !d.rssiTimer && !d.disconnectListener && !d.heartRateSubscribed && !d.batterySubscribed
  {
    var name := if p.localName.Some? && p.localName.value != "" then p.localName.value else UnknownDeviceName;
    Device(p, DeviceData(0, None, p.id, None, None, name, 0), false, false, false, false)
  }

  // ---------------------------------------------------------------------------
  // Signal strength

  function Max(a: real, b: real): real { if a < b then b else a }
  function Min(a: real, b: real): real { if a < b then a else b }

  /** The percentage formula of `setRSSI`, evaluated over exact reals. */
  function RssiPercentage(dbm: real): real {
    Max(0.0, Min(100.0, ((dbm - MinRssi as real) / ((MaxRssi - MinRssi) as real)) * 100.0))
  }

  /** Integer signal strength normalisation: a clamped linear map of [-100, -50] dBm onto [0, 100]. */
  function NormalizeRssi(dbm: int): (p: int)
    ensures 0 <= p <= 100
    ensures p as real == RssiPercentage(dbm as real)
  {
    if dbm <= MinRssi then 0
    else if dbm >= MaxRssi then 100
    else 2 * (dbm - MinRssi)
  }

  /** A stronger signal never gives a smaller percentage. */
  lemma NormalizeRssiMonotone(a: int, b: int)
    requires a <= b
    ensures NormalizeRssi(a) <= NormalizeRssi(b)
  {
  }

  /** The floor maps to 0, the midpoint to 50 and the ceiling to 100; anything outside the range is clamped. */
  lemma NormalizeRssiAnchors(dbm: int)
    ensures NormalizeRssi(-100) == 0 && NormalizeRssi(-75) == 50 && NormalizeRssi(-50) == 100
    ensures dbm <= -100 ==> NormalizeRssi(dbm) == 0
    ensures dbm >= -50 ==> NormalizeRssi(dbm) == 100
  {
  }

  /** One tick of the signal-strength timer with the peripheral's current raw reading. */
  function SetRssi(d: Device, dbm: int): (r: Device)
    ensures Valid(d) ==> Valid(r)
    ensures r.data.rssi as real == RssiPercentage(dbm as real)
    ensures r == d.(data := r.data) && r.data == d.data.(rssi := r.data.rssi)
  {
    d.(data := d.data.(rssi := NormalizeRssi(dbm)))
  }

  // ---------------------------------------------------------------------------
  // Heart Rate Measurement decoding

  /**
   * Bit 0 of the flags byte (`data[0] & 0x01`) selects the 16-bit format. An
   * empty buffer reads `undefined & 1`, which is 0: the 8-bit format.
   */
  predicate SixteenBit(data: seq<Byte>) {
    |data| > 0 && data[0] % 2 == 1
  }

  /**
   * The heart-rate value of a measurement: `data[1]` in the 8-bit format,
   * little-endian `data[1..3]` in the 16-bit format. A buffer too short for
   * the selected format makes the source throw a range error: None.
   */
  function ParseHeartRate(data: seq<Byte>): (r: Option<nat>)
    ensures r.Some? <==> |data| >= (if SixteenBit(data) then 3 else 2)
    ensures r.Some? && !SixteenBit(data) ==> r.value == data[1] && r.value < 256
    ensures r.Some? && SixteenBit(data) ==> r.value == data[1] as int + 256 * data[2] as int && r.value < 65536
  {
    if !SixteenBit(data) then
      if |data| < 2 then None else Some(data[1])
    else
      if |data| < 3 then None else Some(data[1] as int + 256 * data[2] as int)
  }

  /** A measurement carrying `bpm` in the chosen format with no other flag bits and no optional fields. */
  function EncodeHeartRate(bpm: nat, sixteenBit: bool): (data: seq<Byte>)
    requires bpm < (if sixteenBit then 65536 else 256)
  {
    if sixteenBit then [1, bpm % 256, bpm / 256] else [0, bpm]
  }

  /** Decoding an encoded measurement gives back the value, in either format. */
  lemma ParseEncodeRoundTrip(bpm: nat, sixteenBit: bool)
    requires bpm < (if sixteenBit then 65536 else 256)
    ensures ParseHeartRate(EncodeHeartRate(bpm, sixteenBit)) == Some(bpm)
  {
  }

  /**
   * Every decodable buffer is, up to the flag bits other than bit 0 and the
   * bytes after the value, the encoding of its decoded value.
   */
  lemma EncodeParseRoundTrip(data: seq<Byte>)
    requires ParseHeartRate(data).Some?
    ensures var n := if SixteenBit(data) then 3 else 2;
            EncodeHeartRate(ParseHeartRate(data).value, SixteenBit(data)) == [data[0] % 2] + data[1..n]
  {
  }

  /** Only bit 0 of the flags byte and the value bytes matter: other flag bits and any trailing fields are ignored. */
  lemma ParseIgnoresOtherBits(flags: Byte, value: seq<Byte>, tail: seq<Byte>, otherFlags: Byte, otherTail: seq<Byte>)
    requires flags % 2 == otherFlags % 2
    ensures ParseHeartRate([flags] + value + tail) == ParseHeartRate([otherFlags] + value + otherTail) || |value| < (if flags % 2 == 1 then 2 else 1)
  {
    var a := [flags] + value + tail;
    var b := [otherFlags] + value + otherTail;
    if |value| >= (if flags % 2 == 1 then 2 else 1) {
      assert a[1] == value[0] == b[1];
      if flags % 2 == 1 {
        assert a[2] == value[1] == b[2];
      }
    }
  }

  /**
   * A heart-rate notification stores the decoded value and emits exactly one
   * snapshot; nothing else changes. A short buffer throws: None.
   */
  function HandleHeartRateData(d: Device, data: seq<Byte>): (r: Option<DeviceStep>)
    ensures r.Some? <==> ParseHeartRate(data).Some?
    ensures r.Some? ==> r.value.device.data.heartRate == ParseHeartRate(data).value
    ensures r.Some? ==> r.value.device == d.(data := d.data.(heartRate := r.value.device.data.heartRate))
    ensures r.Some? ==> r.value.events == [Data(r.value.device.data)]
    ensures r.Some? && Valid(d) ==> Valid(r.value.device)
  {
    match ParseHeartRate(data)
    case None => None
    case Some(bpm) =>
      var d' := d.(data := d.data.(heartRate := bpm));
      Some(DeviceStep(d', [Data(d'.data)]))
  }

  // ---------------------------------------------------------------------------
  // Battery Level

  /**
   * A battery notification: an empty buffer is ignored; otherwise byte 0 is
   * stored when it is a percentage (0..100) and kept out when it is not, and
   * in both cases one snapshot is emitted.
   */
  function HandleBatteryData(d: Device, data: seq<Byte>): (r: DeviceStep)
    ensures |data| == 0 ==> r == DeviceStep(d, [])
    ensures |data| > 0 && data[0] <= 100 ==> r.device == d.(data := d.data.(battery := Some(data[0])))
    ensures |data| > 0 && data[0] > 100 ==> r.device == d
    ensures |data| > 0 ==> r.events == [Data(r.device.data)]
    ensures Valid(d) ==> Valid(r.device)
  {
    if |data| == 0 then DeviceStep(d, [])
    else
      var raw := data[0];
      var d' := if raw <= 100 then d.(data := d.data.(battery := Some(raw))) else d;
      DeviceStep(d', [Data(d'.data)])
  }

  // ---------------------------------------------------------------------------
  // Characteristic lookup and reads

  predicate UuidMatches(c: Characteristic, uuid: string) {
    Text.EqualsIgnoreCase(c.uuid, uuid)
  }

  /** The index of the first characteristic whose uuid equals `uuid` ignoring case, if there is one. */
  function FindCharacteristic(cs: seq<Characteristic>, uuid: string): (r: Option<nat>)
    ensures r.Some? ==> r.value < |cs| && UuidMatches(cs[r.value], uuid)
    ensures r.Some? ==> forall j :: 0 <= j < r.value ==> !UuidMatches(cs[j], uuid)
    ensures r.None? ==> forall j :: 0 <= j < |cs| ==> !UuidMatches(cs[j], uuid)
    decreases |cs|
  {
    if |cs| == 0 then None
    else if UuidMatches(cs[0], uuid) then Some(0)
    else
      match FindCharacteristic(cs[1..], uuid)
      case None => None
      case Some(i) => Some(i + 1)
  }

  /** Lookup does not depend on the case in which the target uuid is written. */
  lemma FindIgnoresTargetCase(cs: seq<Characteristic>, uuid: string, other: string)
    requires Text.EqualsIgnoreCase(uuid, other)
    ensures FindCharacteristic(cs, uuid) == FindCharacteristic(cs, other)
  {
    var a := FindCharacteristic(cs, uuid);
    var b := FindCharacteristic(cs, other);
    assert forall j :: 0 <= j < |cs| ==> (UuidMatches(cs[j], uuid) <==> UuidMatches(cs[j], other));
  }

  /** Removes every trailing NUL character (`replace(/\0+$/, "")`). */
  function StripTrailingNul(s: string): (r: string)
    ensures |r| <= |s| && r == s[..|r|]
    ensures |r| == 0 || r[|r| - 1] != '\0'
    ensures forall i :: |r| <= i < |s| ==> s[i] == '\0'
    decreases |s|
  {
    if |s| > 0 && s[|s| - 1] == '\0' then StripTrailingNul(s[..|s| - 1]) else s
  }

  /** Stripping twice is stripping once. */
  lemma StripTrailingNulIdempotent(s: string)
    ensures StripTrailingNul(StripTrailingNul(s)) == StripTrailingNul(s)
  {
  }

  /**
   * The three facts of the contract pin the result down: any prefix of `s`
   * that has no trailing NUL and leaves only NULs behind is the stripped string.
   */
  lemma {:induction false} StripTrailingNulUnique(s: string, r: string)
    requires |r| <= |s| && r == s[..|r|]
    requires |r| == 0 || r[|r| - 1] != '\0'
    requires forall i :: |r| <= i < |s| ==> s[i] == '\0'
    ensures r == StripTrailingNul(s)
  {
    var t := StripTrailingNul(s);
    assert |r| == |t|;
  }

  /** A characteristic read: the payload without its trailing NULs, or None when the read fails. */
  function ReadCharacteristic(o: ReadOutcome): (r: Option<string>)
    ensures r.None? <==> o.ReadFailed?
    ensures r.Some? ==> r.value == StripTrailingNul(o.text)
  {
    match o
    case ReadOk(_, text) => Some(StripTrailingNul(text))
    case ReadFailed(_) => None
  }

  /**
   * The bytes the battery-level read hands to the battery listener. The radio
   * library delivers read results to a characteristic's data listeners as well
   * as to the reader, so when the battery characteristic exists, its listener
   * is installed and the read succeeds, the bytes reach `HandleBatteryData`.
   */
  function BatteryReadDelivery(d: Device, cs: seq<Characteristic>): Option<seq<Byte>> {
    var battery := FindCharacteristic(cs, BatteryLevelUuid);
    if battery.Some? && d.batterySubscribed && cs[battery.value].read.ReadOk? then Some(cs[battery.value].read.raw)
    else None
  }

  /** The manufacturer name and serial number reads: each is stored when its characteristic exists. */
  function ReadIdentity(data: DeviceData, cs: seq<Characteristic>): (r: DeviceData)
    ensures r == data.(manufacturerName := r.manufacturerName, serialNumber := r.serialNumber)
    ensures FindCharacteristic(cs, ManufacturerNameUuid).None? ==> r.manufacturerName == data.manufacturerName
    ensures FindCharacteristic(cs, ManufacturerNameUuid).Some? ==>
      r.manufacturerName == ReadCharacteristic(cs[FindCharacteristic(cs, ManufacturerNameUuid).value].read)
    ensures FindCharacteristic(cs, SerialNumberUuid).None? ==> r.serialNumber == data.serialNumber
    ensures FindCharacteristic(cs, SerialNumberUuid).Some? ==>
      r.serialNumber == ReadCharacteristic(cs[FindCharacteristic(cs, SerialNumberUuid).value].read)
  {
    var manufacturer := FindCharacteristic(cs, ManufacturerNameUuid);
    var serial := FindCharacteristic(cs, SerialNumberUuid);
    var data1 := if manufacturer.Some? then data.(manufacturerName := ReadCharacteristic(cs[manufacturer.value].read)) else data;
    if serial.Some? then data1.(serialNumber := ReadCharacteristic(cs[serial.value].read)) else data1
  }

  /**
   * One-time reads after connecting: the manufacturer name and serial number
   * are stored when their characteristics exist; the battery level is read
   * last, its returned text is dropped, but the battery listener sees the bytes.
   */
  function ReadDeviceInfo(d: Device, cs: seq<Characteristic>): (r: DeviceStep)
    ensures r.device == d.(data := r.device.data)
    ensures r.device.data == d.data.(manufacturerName := r.device.data.manufacturerName,
                                     serialNumber := r.device.data.serialNumber,
                                     battery := r.device.data.battery)
    ensures FindCharacteristic(cs, ManufacturerNameUuid).None? ==> r.device.data.manufacturerName == d.data.manufacturerName
    ensures FindCharacteristic(cs, ManufacturerNameUuid).Some? ==>
      r.device.data.manufacturerName == ReadCharacteristic(cs[FindCharacteristic(cs, ManufacturerNameUuid).value].read)
    ensures FindCharacteristic(cs, SerialNumberUuid).None? ==> r.device.data.serialNumber == d.data.serialNumber
    ensures FindCharacteristic(cs, SerialNumberUuid).Some? ==>
      r.device.data.serialNumber == ReadCharacteristic(cs[FindCharacteristic(cs, SerialNumberUuid).value].read)
    ensures var p := BatteryReadDelivery(d, cs);
      && (p.Some? && |p.value| > 0 && p.value[0] <= 100 ==> r.device.data.battery == Some(p.value[0]))
      && (p.None? || |p.value| == 0 || p.value[0] > 100 ==> r.device.data.battery == d.data.battery)
      && (p.Some? && |p.value| > 0 ==> r.events == [Data(r.device.data)])
      && (p.None? || |p.value| == 0 ==> r.events == [])
    ensures Valid(d) ==> Valid(r.device)
  {
    var identified := d.(data := ReadIdentity(d.data, cs));
    match BatteryReadDelivery(d, cs)
    case None => DeviceStep(identified, [])
    case Some(raw) => HandleBatteryData(identified, raw)
  }

  /** Whether `cs` holds a characteristic for `uuid` whose subscription is rejected. */
  predicate SubscribeFails(cs: seq<Characteristic>, uuid: string) {
    FindCharacteristic(cs, uuid).Some? && cs[FindCharacteristic(cs, uuid).value].subscribe.Failed?
  }

  /**
   * Subscribes to heart-rate and then battery notifications when those
   * characteristics exist; a failed subscription rejects and skips the rest.
   */
  /** The session with every subscription flag set whose characteristic was found. */
  function Subscribed(d: Device, cs: seq<Characteristic>): Device {
    d.(heartRateSubscribed := d.heartRateSubscribed || FindCharacteristic(cs, HeartRateMeasurementUuid).Some?,
       batterySubscribed := d.batterySubscribed || FindCharacteristic(cs, BatteryLevelUuid).Some?)
  }

  function SetupCharacteristics(d: Device, cs: seq<Characteristic>): (r: ConnectResult)
    ensures SubscribeFails(cs, HeartRateMeasurementUuid) ==>
      r == ConnectResult(d, [], Some(cs[FindCharacteristic(cs, HeartRateMeasurementUuid).value].subscribe.message))
    ensures !SubscribeFails(cs, HeartRateMeasurementUuid) && SubscribeFails(cs, BatteryLevelUuid) ==>
      r == ConnectResult(
        d.(heartRateSubscribed := d.heartRateSubscribed || FindCharacteristic(cs, HeartRateMeasurementUuid).Some?),
        [], Some(cs[FindCharacteristic(cs, BatteryLevelUuid).value].subscribe.message))
    ensures !SubscribeFails(cs, HeartRateMeasurementUuid) && !SubscribeFails(cs, BatteryLevelUuid) ==>
      && r.failure.None?
      && (r.device.heartRateSubscribed <==> d.heartRateSubscribed || FindCharacteristic(cs, HeartRateMeasurementUuid).Some?)
      && (r.device.batterySubscribed <==> d.batterySubscribed || FindCharacteristic(cs, BatteryLevelUuid).Some?)
      && r.device == d.(data := r.device.data, heartRateSubscribed := r.device.heartRateSubscribed,
                        batterySubscribed := r.device.batterySubscribed)
      && r.device.data.manufacturerName == ReadIdentity(d.data, cs).manufacturerName
      && r.device.data.serialNumber == ReadIdentity(d.data, cs).serialNumber
      && r.device == ReadDeviceInfo(Subscribed(d, cs), cs).device
      && r.events == ReadDeviceInfo(Subscribed(d, cs), cs).events
  {
    var heartRate := FindCharacteristic(cs, HeartRateMeasurementUuid);
    var battery := FindCharacteristic(cs, BatteryLevelUuid);
    if heartRate.Some? && cs[heartRate.value].subscribe.Failed? then
      ConnectResult(d, [], Some(cs[heartRate.value].subscribe.message))
    else
      var d1 := if heartRate.Some? then d.(heartRateSubscribed := true) else d;
      if battery.Some? && cs[battery.value].subscribe.Failed? then
        ConnectResult(d1, [], Some(cs[battery.value].subscribe.message))
      else
        var d2 := if battery.Some? then d1.(batterySubscribed := true) else d1;
        var info := ReadDeviceInfo(d2, cs);
        ConnectResult(info.device, info.events, None)
  }

  /**
   * Connecting: once the link is up the signal-strength timer and the
   * one-shot disconnect listener are installed, then services are discovered,
   * notifications subscribed and device information read. The battery read
   * can store a first battery level and emit one snapshot.
   */
  function Connect(d: Device, o: ConnectOutcome): (r: ConnectResult)
    ensures Valid(d) ==> Valid(r.device)
    ensures r.device.peripheral.id == d.peripheral.id
    ensures r.device.data.deviceId == d.data.deviceId && r.device.data.deviceName == d.data.deviceName
    ensures r.device.data.heartRate == d.data.heartRate && r.device.data.rssi == d.data.rssi
    ensures r.events == [] || r.events == [Data(r.device.data)]
    ensures r.failure.Some? ==> r.events == [] && r.device.data == d.data
    ensures r.device.data.battery != d.data.battery ==>
      r.device.data.battery.Some? && r.device.data.battery.value <= 100 && r.device.batterySubscribed && r.events != []
    ensures o.LinkFailed? ==> r == ConnectResult(d, [], Some(o.message))
    ensures !o.LinkFailed? ==> r.device.peripheral.state == Connected && r.device.rssiTimer && r.device.disconnectListener
    ensures o.DiscoveryFailed? ==> r == ConnectResult(Linked(d), [], Some(o.message))
    ensures r.failure.None? ==> o.Discovered?
    ensures r.failure.None? ==>
      && (r.device.heartRateSubscribed <==> d.heartRateSubscribed || FindCharacteristic(o.characteristics, HeartRateMeasurementUuid).Some?)
      && (r.device.batterySubscribed <==> d.batterySubscribed || FindCharacteristic(o.characteristics, BatteryLevelUuid).Some?)
      && r.device.data.manufacturerName == ReadIdentity(d.data, o.characteristics).manufacturerName
      && r.device.data.serialNumber == ReadIdentity(d.data, o.characteristics).serialNumber
      && r.device == ReadDeviceInfo(Subscribed(Linked(d), o.characteristics), o.characteristics).device
      && r.events == ReadDeviceInfo(Subscribed(Linked(d), o.characteristics), o.characteristics).events
    ensures o.Discovered? && SubscribeFails(o.characteristics, HeartRateMeasurementUuid) ==>
      && r.failure == Some(o.characteristics[FindCharacteristic(o.characteristics, HeartRateMeasurementUuid).value].subscribe.message)
      && r.device == Linked(d)
    ensures o.Discovered? && !SubscribeFails(o.characteristics, HeartRateMeasurementUuid)
                          && SubscribeFails(o.characteristics, BatteryLevelUuid) ==>
      && r.failure == Some(o.characteristics[FindCharacteristic(o.characteristics, BatteryLevelUuid).value].subscribe.message)
      && r.device == Linked(d).(heartRateSubscribed := d.heartRateSubscribed
                                  || FindCharacteristic(o.characteristics, HeartRateMeasurementUuid).Some?)
  {
    match o
    case LinkFailed(msg) => ConnectResult(d, [], Some(msg))
    case DiscoveryFailed(msg) => ConnectResult(Linked(d), [], Some(msg))
    case Discovered(cs) => SetupCharacteristics(Linked(d), cs)
  }

  /**
   * When every subscription succeeds and the battery read returns a
   * percentage, connecting stores it as the first battery level and emits
   * exactly one snapshot that carries it.
   */
  lemma ConnectStoresFirstBatteryLevel(d: Device, cs: seq<Characteristic>)
    requires FindCharacteristic(cs, HeartRateMeasurementUuid).Some? ==>
      cs[FindCharacteristic(cs, HeartRateMeasurementUuid).value].subscribe.Ok?
    requires FindCharacteristic(cs, BatteryLevelUuid).Some?
    requires var c := cs[FindCharacteristic(cs, BatteryLevelUuid).value];
      c.subscribe.Ok? && c.read.ReadOk? && |c.read.raw| > 0 && c.read.raw[0] <= 100
    ensures var r := Connect(d, Discovered(cs));
      && r.failure.None?
      && r.device.data.battery == Some(cs[FindCharacteristic(cs, BatteryLevelUuid).value].read.raw[0])
      && r.events == [Data(r.device.data)]
  {
  }

  /**
   * A rejected battery subscription rejects `connect`, but the heart-rate
   * subscription made just before it stays in place: the session keeps
   * streaming heart rate, without battery updates or device information.
   */
  lemma BatterySubscribeFailureKeepsHeartRate(d: Device, cs: seq<Characteristic>)
    requires FindCharacteristic(cs, HeartRateMeasurementUuid).Some?
    requires cs[FindCharacteristic(cs, HeartRateMeasurementUuid).value].subscribe.Ok?
    requires SubscribeFails(cs, BatteryLevelUuid)
    ensures var r := Connect(d, Discovered(cs));
      && r.failure == Some(cs[FindCharacteristic(cs, BatteryLevelUuid).value].subscribe.message)
      && r.device.heartRateSubscribed
      && r.device.batterySubscribed == d.batterySubscribed
      && r.device.data == d.data
      && r.events == []
  {
  }

  /** The state right after `connectAsync` resolves. */
  function Linked(d: Device): Device {
    d.(peripheral := d.peripheral.(state := Connected), rssiTimer := true, disconnectListener := true)
  }

  /** The disconnect listener: stops the signal-strength timer and announces the disconnection under the device id. */
  function HandleDisconnect(d: Device): (r: DeviceStep)
    ensures r.device == d.(rssiTimer := false, disconnectListener := false)
    ensures r.events == [Disconnect(d.data.deviceId)]
    ensures Valid(d) ==> Valid(r.device)
  {
    DeviceStep(d.(rssiTimer := false, disconnectListener := false), [Disconnect(d.data.deviceId)])
  }

  /** Whether the peripheral reports a live link. */
  predicate IsConnected(d: Device) {
    d.peripheral.state == Connected
  }

  /** The radio reports the link gone: the one-shot disconnect listener, if installed, runs `HandleDisconnect`. */
  function LinkDropped(d: Device): (r: DeviceStep)
    ensures d.disconnectListener ==>
      && r.events == [Disconnect(d.data.deviceId)]
      && r.device == d.(peripheral := d.peripheral.(state := Disconnected), rssiTimer := false, disconnectListener := false)
    ensures !d.disconnectListener ==>
      r.device == d.(peripheral := d.peripheral.(state := Disconnected)) && r.events == []
    ensures Valid(d) ==> Valid(r.device)
  {
    var down := d.(peripheral := d.peripheral.(state := Disconnected));
    if down.disconnectListener then HandleDisconnect(down) else DeviceStep(down, [])
  }

  /**
   * `disconnect`: only a session whose peripheral reports a live link asks the
   * radio to drop it. `dropped` says whether the radio did; its link-drop event
   * reaches the session's listener before the request settles. A request that
   * fails is only logged.
   */
  function RequestDisconnect(d: Device, dropped: bool): (r: DeviceStep)
    ensures !IsConnected(d) || !dropped ==> r == DeviceStep(d, [])
    ensures IsConnected(d) && dropped && d.disconnectListener ==>
      && r.events == [Disconnect(d.data.deviceId)]
      && r.device == d.(peripheral := d.peripheral.(state := Disconnected), rssiTimer := false, disconnectListener := false)
    ensures IsConnected(d) && dropped && !d.disconnectListener ==>
      r.events == [] && r.device == d.(peripheral := d.peripheral.(state := Disconnected))
    ensures Valid(d) ==> Valid(r.device)
  {
    if IsConnected(d) && dropped then LinkDropped(d) else DeviceStep(d, [])
  }

  /** Once a request has dropped the link, a second request finds no live link and does nothing. */
  lemma RequestDisconnectTwice(d: Device, again: bool)
    ensures var once := RequestDisconnect(d, true).device;
      RequestDisconnect(once, again) == DeviceStep(once, [])
  {
  }

  /** A session that got its link up announces its disconnection exactly once, and its rssi timer stops. */
  lemma LinkedSessionAnnouncesDisconnect(d: Device, o: ConnectOutcome)
    requires !o.LinkFailed?
    ensures var s := RequestDisconnect(Connect(d, o).device, true);
      && s.events == [Disconnect(d.data.deviceId)]
      && !s.device.rssiTimer
      && RequestDisconnect(s.device, true).events == []
  {
  }
}

=== FILE: monitor.dfy ===
/**
 * The multi-device monitor as a transition function: each radio, process or
 * caller event maps a monitor record to its successor, appending what the
 * monitor emits to `out` and the radio commands it issues to `calls`.
 *
 * The adapter-readiness gate is a promise that `poweredOn` resolves and every
 * other adapter state replaces. It is modelled as a generation number and a
 * ready flag: a start attempt that reaches the gate while it is not ready is
 * parked on the current generation, `poweredOn` releases that generation, and
 * attempts parked on an older generation wait forever, because the resolver
 * of their promise has been overwritten.
 */
module Monitor {
  import opened Wrappers
  import opened HeartRateDevice
  import Text

  const PoweredOn: string := "poweredOn"
  const NoAdapterMessage: string := "No Bluetooth adapter found"
  const PermissionMessage: string := "Permission denied. May need elevated privileges"
  const UnknownStartErrorMessage: string := "Unknown error occurred while starting the scan"

  /** The readiness gate: which promise is current, and whether it has been resolved. */
  datatype Gate = Gate(generation: nat, ready: bool)

  /** Commands issued to the radio library. A cleanup's disconnects run concurrently, so they form one batch. */
  datatype RadioCall =
    | StartScan(serviceUuids: seq<string>, allowDuplicates: bool)
    | StopScan
    | DisconnectPeripherals(ids: set<string>)

  /** The only start command the monitor issues: heart-rate service, duplicates allowed. */
  const HeartRateScan: RadioCall := StartScan([HeartRateServiceUuid], true)

  /** Events the monitor emits to its consumers. */
  datatype Emitted =
    | AdapterStateChange(state: string)
    | AdapterReady
    | ScanStart
    | ScanStop
    | DeviceConnected(id: string)
    | DeviceDisconnected(id: string)
    | DeviceDataEvent(snapshot: DeviceData)
    | Error(message: string)

  /** What a rejected start-scan call rejects with: an `Error` object, or some other thrown value. */
  datatype StartFailure = ErrorObject(message: string) | NonErrorValue

  /** Everything that can happen to the monitor. */
  datatype Event =
    | RequestScan                                         // startScanning()
    | ScanStartSucceeded                                  // an issued start-scan call resolves
    | ScanStartFailed(failure: StartFailure)              // an issued start-scan call rejects
    | RequestStop(stop: Outcome)                          // stopScanning(), with the stop call's outcome
    | StateChange(state: string, stop: Outcome)           // adapter state change
    | Discover(peripheral: Peripheral, connect: ConnectOutcome)
    | HeartRateNotification(id: string, payload: seq<Byte>)
    | BatteryNotification(id: string, payload: seq<Byte>)
    | RssiTick(id: string, dbm: int)                      // the signal-strength timer of one device fires
    | PeripheralDisconnected(id: string)                  // the radio reports a link drop
    | RadioScanStarted
    | RadioScanStopped
    | Wake
    | Cleanup(stop: Outcome, drops: seq<string>)          // sleep or shutdown, with the links the radio drops, in order

  /**
   * The monitor. `waiters` holds the gate generation of every parked start
   * attempt; `inFlight` counts start-scan calls issued and not yet settled.
   */
  datatype Monitor = Monitor(
    isScanning: bool,
    scanRequested: bool,
    gate: Gate,
    waiters: multiset<nat>,
    inFlight: nat,
    devices: map<string, Device>,
    out: seq<Emitted>,
    calls: seq<RadioCall>)

  /** The monitor as its constructor leaves it: not scanning, nothing requested, a fresh unresolved gate. */
  function Init(): (r: Monitor)
    ensures !r.isScanning && !r.scanRequested
    ensures r.gate.generation == 0 && !r.gate.ready
    ensures r.waiters == multiset{} && r.inFlight == 0
    ensures r.devices == map[] && r.out == [] && r.calls == []
  {
    Monitor(false, false, Gate(0, false), multiset{}, 0, map[], [], [])
  }

  /** `count` copies of the heart-rate start command. */
  function StartCalls(count: nat): (r: seq<RadioCall>)
    ensures |r| == count
    ensures forall i :: 0 <= i < count ==> r[i] == HeartRateScan
  {
    seq(count, i => HeartRateScan)
  }

  // ---------------------------------------------------------------------------
  // Scan control

  /**
   * The body of `startScanning_DO` up to the radio call. The guard is read
   * before the gate is awaited and never again; an open gate lets the call go
   * out at once, a closed one parks the attempt on the current generation.
   */
  function StartScanningDo(m: Monitor): (r: Monitor)
    ensures m.isScanning || !m.scanRequested ==> r == m
    ensures !m.isScanning && m.scanRequested && m.gate.ready ==>
      r == m.(calls := m.calls + [HeartRateScan], inFlight := m.inFlight + 1)
    ensures !m.isScanning && m.scanRequested && !m.gate.ready ==>
      r == m.(waiters := m.waiters + multiset{m.gate.generation})
  {
    if m.isScanning || !m.scanRequested then m
    else if m.gate.ready then m.(calls := m.calls + [HeartRateScan], inFlight := m.inFlight + 1)
    else m.(waiters := m.waiters + multiset{m.gate.generation})
  }

  /** `startScanning`: records the request, which nothing ever withdraws, then attempts to start. */
  function StartScanning(m: Monitor): (r: Monitor)
    ensures r.scanRequested
    ensures r.isScanning == m.isScanning && r.gate == m.gate && r.devices == m.devices && r.out == m.out
    ensures |r.calls| <= |m.calls| + 1
    ensures !m.gate.ready ==> r.calls == m.calls
    ensures m.isScanning ==> r.calls == m.calls && r.waiters == m.waiters && r.inFlight == m.inFlight
  {
    StartScanningDo(m.(scanRequested := true))
  }

  /** The scan error classification: a missing adapter wins over a permission problem; anything else passes through. */
  function ClassifyScanError(message: string): (r: string)
    ensures (exists i :: Text.OccursAt(message, "ENODEV", i)) ==> r == NoAdapterMessage
    ensures (forall i :: !Text.OccursAt(message, "ENODEV", i)) && (exists i :: Text.OccursAt(message, "EPERM", i)) ==>
      r == PermissionMessage
    ensures (forall i :: !Text.OccursAt(message, "ENODEV", i)) && (forall i :: !Text.OccursAt(message, "EPERM", i)) ==>
      r == message
  {
    if Text.Contains(message, "ENODEV") then NoAdapterMessage
    else if Text.Contains(message, "EPERM") then PermissionMessage
    else message
  }

  /** The message of the one error event a rejected start emits. */
  function StartErrorMessage(f: StartFailure): string {
    match f
    case ErrorObject(message) => ClassifyScanError(message)
    case NonErrorValue => UnknownStartErrorMessage
  }

  /** A start-scan call resolves: the monitor is scanning. */
  function StartSucceeded(m: Monitor): (r: Monitor)
    ensures m.inFlight > 0 ==> r == m.(isScanning := true, inFlight := m.inFlight - 1)
    ensures m.inFlight == 0 ==> r == m
  {
    if m.inFlight == 0 then m else m.(isScanning := true, inFlight := m.inFlight - 1)
  }

  /** A start-scan call rejects: exactly one classified error event, and the scanning flag is left alone. */
  function StartFailed(m: Monitor, f: StartFailure): (r: Monitor)
    ensures m.inFlight > 0 ==> r == m.(inFlight := m.inFlight - 1, out := m.out + [Error(StartErrorMessage(f))])
    ensures m.inFlight == 0 ==> r == m
  {
    if m.inFlight == 0 then m
    else m.(inFlight := m.inFlight - 1, out := m.out + [Error(StartErrorMessage(f))])
  }

  /** `stopScanning`: nothing unless scanning; a successful stop clears the flag, a failed one only logs. */
  function StopScanning(m: Monitor, stop: Outcome): (r: Monitor)
    ensures !m.isScanning ==> r == m
    ensures m.isScanning ==> r == m.(calls := m.calls + [StopScan], isScanning := stop.Failed?)
  {
    if !m.isScanning then m
    else m.(calls := m.calls + [StopScan], isScanning := stop.Failed?)
  }

  // ---------------------------------------------------------------------------
  // Adapter state

  /** Resolves the current gate promise: every attempt parked on this generation issues its start call. */
  function ReleaseWaiters(m: Monitor): (r: Monitor)
    ensures r.gate == m.gate.(ready := true)
    ensures r.waiters == m.waiters[m.gate.generation := 0]
    ensures r.calls == m.calls + StartCalls(m.waiters[m.gate.generation])
    ensures r.inFlight == m.inFlight + m.waiters[m.gate.generation]
    ensures r == m.(gate := r.gate, waiters := r.waiters, calls := r.calls, inFlight := r.inFlight)
  {
    var released := m.waiters[m.gate.generation];
    m.(gate := m.gate.(ready := true),
       waiters := m.waiters[m.gate.generation := 0],
       calls := m.calls + StartCalls(released),
       inFlight := m.inFlight + released)
  }

  /**
   * `handleStateChange`: announce the state; `poweredOn` resolves the gate (if
   * it is not resolved yet) and announces readiness before the released
   * attempts resume; any other state replaces the gate and stops scanning.
   */
  function HandleStateChange(m: Monitor, state: string, stop: Outcome): (r: Monitor)
    ensures r.scanRequested == m.scanRequested && r.devices == m.devices
    ensures state == PoweredOn ==>
      && r.out == m.out + [AdapterStateChange(PoweredOn), AdapterReady]
      && r.gate == Gate(m.gate.generation, true)
      && r.isScanning == m.isScanning
    ensures state == PoweredOn && m.gate.ready ==> r == m.(out := r.out)
    ensures state == PoweredOn && !m.gate.ready ==>
      && r.waiters == m.waiters[m.gate.generation := 0]
      && r.calls == m.calls + StartCalls(m.waiters[m.gate.generation])
      && r.inFlight == m.inFlight + m.waiters[m.gate.generation]
    ensures state != PoweredOn ==>
      && r.out == m.out + [AdapterStateChange(state)]
      && r.gate == Gate(m.gate.generation + 1, false)
      && r.waiters == m.waiters && r.inFlight == m.inFlight
      && (m.isScanning ==> r.calls == m.calls + [StopScan] && r.isScanning == stop.Failed?)
      && (!m.isScanning ==> r.calls == m.calls && !r.isScanning)
  {
    var m1 := m.(out := m.out + [AdapterStateChange(state)]);
    if state == PoweredOn then
      var m2 := m1.(out := m1.out + [AdapterReady]);
      if m.gate.ready then m2 else ReleaseWaiters(m2)
    else
      StopScanning(m1.(gate := Gate(m.gate.generation + 1, false)), stop)
  }

  // ---------------------------------------------------------------------------
  // Device registry

  /**
   * `handleDiscovery`: a connectable peripheral not yet in the registry gets a
   * session, stored under its id and announced, with the monitor's listeners
   * attached before it connects: what the session emits while connecting is
   * forwarded, and a failed connect is reported but the session stays registered.
   */
  function HandleDiscovery(m: Monitor, p: Peripheral, c: ConnectOutcome): (r: Monitor)
    ensures !p.connectable || p.id in m.devices ==> r == m
    ensures p.connectable && p.id !in m.devices ==>
      var connected := Connect(NewDevice(p), c);
      && r.devices == m.devices[p.id := connected.device]
      && r.out == m.out + [DeviceConnected(p.id)]
                 + (if connected.events == [] then [] else [DeviceDataEvent(connected.device.data)])
                 + (if connected.failure.Some? then [Error(connected.failure.value)] else [])
      && r == m.(devices := r.devices, out := r.out)
  {
    if !p.connectable || p.id in m.devices then m
    else
      var connected := Connect(NewDevice(p), c);
      var registered := m.(devices := m.devices[p.id := connected.device], out := m.out + [DeviceConnected(p.id)]);
      var forwarded := Relay(registered, p.id, connected.events);
      if connected.failure.Some? then forwarded.(out := forwarded.out + [Error(connected.failure.value)])
      else forwarded
  }

  /** `handleDeviceDisconnect`: a registered session is announced and dropped; an unknown id changes nothing. */
  function HandleDeviceDisconnect(m: Monitor, id: string): (r: Monitor)
    ensures id !in m.devices ==> r == m
    ensures id in m.devices ==> r == m.(devices := m.devices - {id}, out := m.out + [DeviceDisconnected(id)])
  {
    if id in m.devices then m.(devices := m.devices - {id}, out := m.out + [DeviceDisconnected(id)])
    else m
  }

  /**
   * The monitor's listeners on the session registered under `id`: snapshots
   * are re-emitted (the source adds a timestamp) and the session's own
   * disconnect runs `handleDeviceDisconnect` for the id it was registered with.
   */
  function Relay(m: Monitor, id: string, events: seq<DeviceEvent>): (r: Monitor)
    ensures r.isScanning == m.isScanning && r.scanRequested == m.scanRequested && r.gate == m.gate
    ensures r.waiters == m.waiters && r.inFlight == m.inFlight && r.calls == m.calls
    ensures r.devices.Keys <= m.devices.Keys
    ensures forall k :: k in r.devices ==> k in m.devices && r.devices[k] == m.devices[k]
    ensures (forall i :: 0 <= i < |events| ==> events[i].Data?) ==> r.devices == m.devices
    ensures events == [] ==> r == m
    ensures |events| == 1 && events[0].Data? ==> r == m.(out := m.out + [DeviceDataEvent(events[0].snapshot)])
    ensures |events| == 1 && events[0].Disconnect? ==> r == HandleDeviceDisconnect(m, id)
    decreases |events|
  {
    if |events| == 0 then m
    else
      var m1 := match events[0]
        case Data(snapshot) => m.(out := m.out + [DeviceDataEvent(snapshot)])
        case Disconnect(_) => HandleDeviceDisconnect(m, id);
      Relay(m1, id, events[1..])
  }

  /** Puts a changed session back under its id. */
  function Store(m: Monitor, id: string, d: Device): Monitor {
    m.(devices := m.devices[id := d])
  }

  /**
   * A heart-rate notification reaches a registered session that subscribed to
   * it; a buffer too short for its format is dropped, otherwise the new rate is
   * stored and one snapshot re-emitted.
   */
  function OnHeartRate(m: Monitor, id: string, payload: seq<Byte>): (r: Monitor)
    ensures id !in m.devices || !m.devices[id].heartRateSubscribed || ParseHeartRate(payload).None? ==> r == m
    ensures id in m.devices && m.devices[id].heartRateSubscribed && ParseHeartRate(payload).Some? ==>
      var updated := m.devices[id].(data := m.devices[id].data.(heartRate := ParseHeartRate(payload).value));
      r == m.(devices := m.devices[id := updated], out := m.out + [DeviceDataEvent(updated.data)])
  {
    if id !in m.devices || !m.devices[id].heartRateSubscribed then m
    else
      match HandleHeartRateData(m.devices[id], payload)
      case None => m
      case Some(step) => Relay(Store(m, id, step.device), id, step.events)
  }

  /**
   * A battery notification (or the delivered battery read) reaches a
   * registered session that subscribed to it; an empty buffer is dropped, any
   * other re-emits one snapshot, storing the first byte only when it is a
   * percentage.
   */
  function OnBattery(m: Monitor, id: string, payload: seq<Byte>): (r: Monitor)
    ensures id !in m.devices || !m.devices[id].batterySubscribed || |payload| == 0 ==> r == m
    ensures id in m.devices && m.devices[id].batterySubscribed && |payload| > 0 && payload[0] <= 100 ==>
      var updated := m.devices[id].(data := m.devices[id].data.(battery := Some(payload[0])));
      r == m.(devices := m.devices[id := updated], out := m.out + [DeviceDataEvent(updated.data)])
    ensures id in m.devices && m.devices[id].batterySubscribed && |payload| > 0 && payload[0] > 100 ==>
      r == m.(out := m.out + [DeviceDataEvent(m.devices[id].data)])
  {
    if id !in m.devices || !m.devices[id].batterySubscribed then m
    else
      var step := HandleBatteryData(m.devices[id], payload);
      Relay(Store(m, id, step.device), id, step.events)
  }

  /** The signal-strength interval of the session under `id` fires: only a running timer updates its rssi. */
  function OnRssiTick(m: Monitor, id: string, dbm: int): (r: Monitor)
    ensures id in m.devices && m.devices[id].rssiTimer ==> r == m.(devices := m.devices[id := SetRssi(m.devices[id], dbm)])
    ensures id !in m.devices || !m.devices[id].rssiTimer ==> r == m
  {
    if id !in m.devices || !m.devices[id].rssiTimer then m
    else Store(m, id, SetRssi(m.devices[id], dbm))
  }

  /**
   * The radio reports a link drop on the session registered under `id`: its
   * one-shot listener, if installed, announces the disconnection, and the
   * monitor then drops the session; without a listener only the link state changes.
   */
  function OnPeripheralDisconnected(m: Monitor, id: string): (r: Monitor)
    ensures id !in m.devices ==> r == m
    ensures id in m.devices && m.devices[id].disconnectListener ==>
      r == m.(devices := m.devices - {id}, out := m.out + [DeviceDisconnected(id)])
    ensures id in m.devices && !m.devices[id].disconnectListener ==>
      r == m.(devices := m.devices[id := m.devices[id].(peripheral := m.devices[id].peripheral.(state := Disconnected))])
  {
    if id !in m.devices then m
    else
      var step := LinkDropped(m.devices[id]);
      var stored := Store(m, id, step.device);
      assert step.device.disconnectListener ==> stored.devices - {id} == m.devices - {id};
      Relay(stored, id, step.events)
  }

  // ---------------------------------------------------------------------------
  // Lifecycle

  /** `handleWake`: re-request scanning only when it had been requested before. */
  function HandleWake(m: Monitor): (r: Monitor)
    ensures !m.scanRequested ==> r == m
    ensures m.scanRequested ==> r == StartScanning(m)
  {
    if m.scanRequested then StartScanning(m) else m
  }

  /** The ids whose sessions report a live link, to which cleanup sends a disconnect. */
  function LinkedIds(devices: map<string, Device>): (ids: set<string>)
    ensures forall id :: id in ids <==> id in devices && IsConnected(devices[id])
  {
    set id | id in devices && IsConnected(devices[id])
  }

  /**
   * One of cleanup's disconnect requests, for a session whose link the radio
   * drops: for a session with a live link this is exactly a reported link drop.
   */
  function DisconnectOne(m: Monitor, id: string): (r: Monitor)
    ensures id !in m.devices || !IsConnected(m.devices[id]) ==> r == m
    ensures id in m.devices && IsConnected(m.devices[id]) ==> r == OnPeripheralDisconnected(m, id)
  {
    if id !in m.devices then m
    else
      var step := RequestDisconnect(m.devices[id], true);
      var stored := Store(m, id, step.device);
      assert step.device.disconnectListener ==> stored.devices - {id} == m.devices - {id};
      Relay(stored, id, step.events)
  }

  /**
   * Cleanup's disconnect requests for the sessions whose links drop, in the
   * order the radio reports the drops. A request that fails drops nothing and
   * does not appear in `drops`.
   */
  function DisconnectAll(m: Monitor, drops: seq<string>): (r: Monitor)
    ensures r == m.(devices := r.devices, out := r.out)
    ensures r.devices.Keys <= m.devices.Keys
    ensures forall id :: id in r.devices ==> r.devices[id] == m.devices[id] || !IsConnected(r.devices[id])
    ensures |m.out| <= |r.out| && r.out[..|m.out|] == m.out
    decreases |drops|
  {
    if |drops| == 0 then m
    else DisconnectAll(DisconnectOne(m, drops[0]), drops[1..])
  }

  /**
   * `cleanup`: stop scanning, ask every linked session to disconnect, wait for
   * all of them (failures are only logged), then empty the registry. Each
   * session whose link drops runs its listener while cleanup waits.
   */
  function HandleCleanup(m: Monitor, stop: Outcome, drops: seq<string>): (r: Monitor)
    ensures r.devices == map[]
    ensures r.isScanning == (m.isScanning && stop.Failed?)
    ensures r.scanRequested == m.scanRequested && r.gate == m.gate && r.waiters == m.waiters && r.inFlight == m.inFlight
    ensures |m.out| <= |r.out| && r.out[..|m.out|] == m.out
    ensures var ids := LinkedIds(m.devices);
      r.calls == m.calls + (if m.isScanning then [StopScan] else []) + (if ids == {} then [] else [DisconnectPeripherals(ids)])
  {
    var m1 := StopScanning(m, stop);
    var ids := LinkedIds(m1.devices);
    var m2 := m1.(calls := m1.calls + (if ids == {} then [] else [DisconnectPeripherals(ids)]));
    DisconnectAll(m2, drops).(devices := map[])
  }

  // ---------------------------------------------------------------------------
  // Dispatch

  function Step(m: Monitor, e: Event): Monitor {
    match e
    case RequestScan => StartScanning(m)
    case ScanStartSucceeded => StartSucceeded(m)
    case ScanStartFailed(f) => StartFailed(m, f)
    case RequestStop(stop) => StopScanning(m, stop)
    case StateChange(state, stop) => HandleStateChange(m, state, stop)
    case Discover(p, c) => HandleDiscovery(m, p, c)
    case HeartRateNotification(id, payload) => OnHeartRate(m, id, payload)
    case BatteryNotification(id, payload) => OnBattery(m, id, payload)
    case RssiTick(id, dbm) => OnRssiTick(m, id, dbm)
    case PeripheralDisconnected(id) => OnPeripheralDisconnected(m, id)
    case RadioScanStarted => m.(out := m.out + [ScanStart])
    case RadioScanStopped => m.(out := m.out + [ScanStop])
    case Wake => HandleWake(m)
    case Cleanup(stop, drops) => HandleCleanup(m, stop, drops)
  }

  /** The monitor after a sequence of events, in arrival order. */
  function Run(m: Monitor, events: seq<Event>): Monitor
    decreases |events|
  {
    if |events| == 0 then m else Run(Step(m, events[0]), events[1..])
  }
}

=== FILE: monitor_properties.dfy ===
/**
 * Properties of the monitor's transition function: the invariant every event
 * preserves, the sticky scan request, the gate's control over start commands,
 * the fate of attempts parked on a replaced gate, the registry rules, and the
 * start-up scenarios the monitor's tests describe.
 */
module MonitorProperties {
  import opened Wrappers
  import opened HeartRateDevice
  import opened Monitor

  // ---------------------------------------------------------------------------
  // Invariant

  /** Parked attempts wait on the current or an older generation, and never on a resolved one. */
  ghost predicate GateOk(m: Monitor) {
    && (forall g :: g in m.waiters ==> g <= m.gate.generation)
    && (m.gate.ready ==> m.gate.generation !in m.waiters)
  }

  /** Something parked or in flight means scanning was requested. */
  ghost predicate RequestOk(m: Monitor) {
    m.waiters != multiset{} || m.inFlight > 0 ==> m.scanRequested
  }

  /** Every start command in the log is the heart-rate scan. */
  ghost predicate CallsOk(calls: seq<RadioCall>) {
    forall i :: 0 <= i < |calls| && calls[i].StartScan? ==> calls[i] == HeartRateScan
  }

  /** Every session is valid and registered under its own id. */
  ghost predicate RegistryOk(devices: map<string, Device>) {
    forall id :: id in devices ==> Valid(devices[id]) && devices[id].data.deviceId == id
  }

  /** The monitor invariant. */
  ghost predicate Inv(m: Monitor) {
    GateOk(m) && RequestOk(m) && CallsOk(m.calls) && RegistryOk(m.devices)
  }

  lemma InitInv()
    ensures Inv(Init())
  {
  }

  /** A wake before anything was requested leaves the fresh monitor as it is: no start call goes out. */
  lemma WakeAtStartIsNoOp()
    ensures Step(Init(), Wake) == Init()
  {
  }

  lemma CallsOkAppend(a: seq<RadioCall>, b: seq<RadioCall>)
    requires CallsOk(a) && CallsOk(b)
    ensures CallsOk(a + b)
  {
    forall i | 0 <= i < |a + b| && (a + b)[i].StartScan?
      ensures (a + b)[i] == HeartRateScan
    {
      if i >= |a| {
        assert (a + b)[i] == b[i - |a|];
      }
    }
  }

  /** Storing a valid session under its own id keeps the registry well formed. */
  lemma StoreKeepsRegistry(m: Monitor, id: string, d: Device)
    requires RegistryOk(m.devices) && Valid(d) && d.data.deviceId == id
    ensures RegistryOk(Store(m, id, d).devices)
  {
  }

  lemma ScanEventsPreserveInv(m: Monitor, e: Event)
    requires Inv(m)
    requires e.RequestScan? || e.Wake? || e.ScanStartSucceeded? || e.ScanStartFailed? || e.RequestStop?
    ensures Inv(Step(m, e))
  {
    match e
    case RequestScan =>
      if !m.isScanning && m.gate.ready {
        CallsOkAppend(m.calls, [HeartRateScan]);
      }
    case Wake =>
      if m.scanRequested && !m.isScanning && m.gate.ready {
        CallsOkAppend(m.calls, [HeartRateScan]);
      }
    case ScanStartSucceeded =>
    case ScanStartFailed(_) =>
    case RequestStop(stop) =>
      CallsOkAppend(m.calls, [StopScan]);
  }

  lemma StateChangePreservesInv(m: Monitor, state: string, stop: Outcome)
    requires Inv(m)
    ensures Inv(HandleStateChange(m, state, stop))
  {
    if state == PoweredOn {
      if !m.gate.ready {
        CallsOkAppend(m.calls, StartCalls(m.waiters[m.gate.generation]));
      }
    } else {
      CallsOkAppend(m.calls, [StopScan]);
    }
  }

  lemma DiscoveryPreservesInv(m: Monitor, p: Peripheral, c: ConnectOutcome)
    requires Inv(m)
    ensures Inv(HandleDiscovery(m, p, c))
  {
  }

  lemma CleanupPreservesInv(m: Monitor, stop: Outcome, drops: seq<string>)
    requires Inv(m)
    ensures Inv(HandleCleanup(m, stop, drops))
  {
    var ids := LinkedIds(m.devices);
    CallsOkAppend(m.calls, if m.isScanning then [StopScan] else []);
    CallsOkAppend(m.calls + (if m.isScanning then [StopScan] else []), if ids == {} then [] else [DisconnectPeripherals(ids)]);
  }

  lemma NotificationsPreserveRegistry(m: Monitor, e: Event)
    requires RegistryOk(m.devices)
    requires e.HeartRateNotification? || e.BatteryNotification? || e.RssiTick? || e.PeripheralDisconnected?
    ensures RegistryOk(Step(m, e).devices)
  {
    match e
    case HeartRateNotification(id, payload) =>
      if id in m.devices && m.devices[id].heartRateSubscribed {
        var step := HandleHeartRateData(m.devices[id], payload);
        if step.Some? {
          StoreKeepsRegistry(m, id, step.value.device);
        }
      }
    case BatteryNotification(id, payload) =>
      if id in m.devices && m.devices[id].batterySubscribed {
        StoreKeepsRegistry(m, id, HandleBatteryData(m.devices[id], payload).device);
      }
    case RssiTick(id, dbm) =>
    case PeripheralDisconnected(id) =>
      if id in m.devices && !m.devices[id].disconnectListener {
        StoreKeepsRegistry(m, id, m.devices[id].(peripheral := m.devices[id].peripheral.(state := Disconnected)));
      }
  }

  /** Notifications, timer ticks and link drops touch only the registry and the output. */
  lemma NotificationsKeepControlState(m: Monitor, e: Event)
    requires e.HeartRateNotification? || e.BatteryNotification? || e.RssiTick? || e.PeripheralDisconnected?
    ensures var r := Step(m, e);
      && r.isScanning == m.isScanning && r.scanRequested == m.scanRequested && r.gate == m.gate
      && r.waiters == m.waiters && r.inFlight == m.inFlight && r.calls == m.calls
  {
  }

  /** Every event preserves the invariant. */
  lemma StepPreservesInv(m: Monitor, e: Event)
    requires Inv(m)
    ensures Inv(Step(m, e))
  {
    match e
    case RequestScan => ScanEventsPreserveInv(m, e);
    case Wake => ScanEventsPreserveInv(m, e);
    case ScanStartSucceeded => ScanEventsPreserveInv(m, e);
    case ScanStartFailed(_) => ScanEventsPreserveInv(m, e);
    case RequestStop(_) => ScanEventsPreserveInv(m, e);
    case StateChange(state, stop) => StateChangePreservesInv(m, state, stop);
    case Discover(p, c) => DiscoveryPreservesInv(m, p, c);
    case Cleanup(stop, drops) => CleanupPreservesInv(m, stop, drops);
    case RadioScanStarted =>
    case RadioScanStopped =>
    case _ =>
      NotificationsPreserveRegistry(m, e);
      NotificationsKeepControlState(m, e);
  }

  /** Every sequence of events from a monitor satisfying the invariant ends in one that does. */
  lemma {:induction false} RunPreservesInv(m: Monitor, events: seq<Event>)
    requires Inv(m)
    ensures Inv(Run(m, events))
    decreases |events|
  {
    if |events| > 0 {
      StepPreservesInv(m, events[0]);
      RunPreservesInv(Step(m, events[0]), events[1..]);
    }
  }

  // ---------------------------------------------------------------------------
  // The scan request is sticky

  /** Only `startScanning` sets the request, and no event clears it. */
  lemma ScanRequestSticky(m: Monitor, e: Event)
    ensures Step(m, e).scanRequested <==> m.scanRequested || e.RequestScan?
  {
  }

  /** Once requested, scanning stays requested through any sequence of events. */
  lemma {:induction false} RunKeepsScanRequest(m: Monitor, events: seq<Event>)
    requires m.scanRequested
    ensures Run(m, events).scanRequested
    decreases |events|
  {
    if |events| > 0 {
      ScanRequestSticky(m, events[0]);
      RunKeepsScanRequest(Step(m, events[0]), events[1..]);
    }
  }

  /** Waking re-requests scanning exactly when a request had been made; otherwise it changes nothing. */
  lemma WakeRestartsOnlyRequested(m: Monitor)
    ensures !m.scanRequested ==> Step(m, Wake) == m
    ensures m.scanRequested ==> Step(m, Wake) == Step(m, RequestScan)
  {
  }

  // ---------------------------------------------------------------------------
  // Start commands go out only through an open gate

  /** The number of start-scan commands in a command log. */
  function Starts(calls: seq<RadioCall>): nat
    decreases |calls|
  {
    if |calls| == 0 then 0
    else Starts(calls[..|calls| - 1]) + (if calls[|calls| - 1].StartScan? then 1 else 0)
  }

  lemma {:induction false} StartsAppend(a: seq<RadioCall>, b: seq<RadioCall>)
    ensures Starts(a + b) == Starts(a) + Starts(b)
    decreases |b|
  {
    if |b| == 0 {
      assert a + b == a;
    } else {
      assert (a + b)[..|a + b| - 1] == a + b[..|b| - 1];
      StartsAppend(a, b[..|b| - 1]);
    }
  }

  lemma {:induction false} StartCallsCount(k: nat)
    ensures Starts(StartCalls(k)) == k
    decreases k
  {
    if k > 0 {
      assert StartCalls(k)[..k - 1] == StartCalls(k - 1);
      StartCallsCount(k - 1);
    }
  }

  /**
   * How many start commands an event issues, stated directly: one for a start
   * request that passes the guard at an open gate, the number of attempts
   * parked on the current generation when `poweredOn` resolves it, none
   * otherwise.
   */
  ghost function ExpectedStarts(m: Monitor, e: Event): nat {
    match e
    case RequestScan => if m.gate.ready && !m.isScanning then 1 else 0
    case Wake => if m.gate.ready && !m.isScanning && m.scanRequested then 1 else 0
    case StateChange(state, _) => if state == PoweredOn && !m.gate.ready then m.waiters[m.gate.generation] else 0
    case _ => 0
  }

  /** The command log only grows, and it grows by exactly the expected number of start commands. */
  lemma StepStarts(m: Monitor, e: Event)
    ensures var r := Step(m, e);
      && |m.calls| <= |r.calls| && r.calls[..|m.calls|] == m.calls
      && Starts(r.calls) == Starts(m.calls) + ExpectedStarts(m, e)
  {
    match e
    case RequestScan =>
      AppendedStarts(m.calls, if !m.isScanning && m.gate.ready then [HeartRateScan] else [], Step(m, e).calls);
    case Wake =>
      AppendedStarts(m.calls, if m.scanRequested && !m.isScanning && m.gate.ready then [HeartRateScan] else [], Step(m, e).calls);
    case StateChange(state, stop) => StateChangeStarts(m, state, stop);
    case RequestStop(_) =>
      AppendedStarts(m.calls, if m.isScanning then [StopScan] else [], Step(m, e).calls);
    case Cleanup(stop, drops) => CleanupStarts(m, stop, drops);
    case Discover(_, _) =>
    case RadioScanStarted =>
    case RadioScanStopped =>
    case ScanStartSucceeded =>
    case ScanStartFailed(_) =>
    case _ => NotificationsKeepControlState(m, e);
  }

  lemma AppendedStarts(a: seq<RadioCall>, b: seq<RadioCall>, c: seq<RadioCall>)
    requires c == a + b
    ensures |a| <= |c| && c[..|a|] == a && Starts(c) == Starts(a) + Starts(b)
  {
    StartsAppend(a, b);
  }

  lemma StateChangeStarts(m: Monitor, state: string, stop: Outcome)
    ensures var r := HandleStateChange(m, state, stop);
      && |m.calls| <= |r.calls| && r.calls[..|m.calls|] == m.calls
      && Starts(r.calls) == Starts(m.calls) + (if state == PoweredOn && !m.gate.ready then m.waiters[m.gate.generation] else 0)
  {
    var r := HandleStateChange(m, state, stop);
    if state == PoweredOn {
      if !m.gate.ready {
        AppendedStarts(m.calls, StartCalls(m.waiters[m.gate.generation]), r.calls);
        StartCallsCount(m.waiters[m.gate.generation]);
      }
    } else {
      AppendedStarts(m.calls, if m.isScanning then [StopScan] else [], r.calls);
    }
  }

  lemma CleanupStarts(m: Monitor, stop: Outcome, drops: seq<string>)
    ensures var r := HandleCleanup(m, stop, drops);
      && |m.calls| <= |r.calls| && r.calls[..|m.calls|] == m.calls && Starts(r.calls) == Starts(m.calls)
  {
    var ids := LinkedIds(m.devices);
    var stopPart := if m.isScanning then [StopScan] else [];
    var disconnectPart := if ids == {} then [] else [DisconnectPeripherals(ids)];
    assert stopPart == [] || stopPart[..0] == [];
    assert disconnectPart == [] || disconnectPart[..0] == [];
    StartsAppend(stopPart, disconnectPart);
    assert HandleCleanup(m, stop, drops).calls == m.calls + (stopPart + disconnectPart);
    AppendedStarts(m.calls, stopPart + disconnectPart, HandleCleanup(m, stop, drops).calls);
  }

  /** No event issues a start command while leaving the gate closed. */
  lemma NoStartWhileGateClosed(m: Monitor, e: Event)
    ensures Starts(Step(m, e).calls) > Starts(m.calls) ==> Step(m, e).gate.ready
  {
    StepStarts(m, e);
  }

  /** A closed gate issues no start commands, whatever the events, until `poweredOn` arrives. */
  lemma {:induction false} ClosedGateIssuesNothing(m: Monitor, events: seq<Event>)
    requires !m.gate.ready
    requires forall i :: 0 <= i < |events| ==> !(events[i].StateChange? && events[i].state == PoweredOn)
    ensures Starts(Run(m, events).calls) == Starts(m.calls)
    ensures !Run(m, events).gate.ready
    decreases |events|
  {
    if |events| > 0 {
      StepStarts(m, events[0]);
      ClosedGateIssuesNothing(Step(m, events[0]), events[1..]);
    }
  }

  // ---------------------------------------------------------------------------
  // The readiness gate

  /**
   * `poweredOn` on a closed gate opens it, announces the state and readiness,
   * and lets every attempt parked on the current generation issue its start
   * command; attempts parked on older generations stay parked.
   */
  lemma PowerOnReleasesCurrentGeneration(m: Monitor, stop: Outcome)
    requires !m.gate.ready
    ensures var r := Step(m, StateChange(PoweredOn, stop));
      && r.gate == Gate(m.gate.generation, true)
      && r.out == m.out + [AdapterStateChange(PoweredOn), AdapterReady]
      && r.waiters == m.waiters[m.gate.generation := 0]
      && r.calls == m.calls + StartCalls(m.waiters[m.gate.generation])
      && r.inFlight == m.inFlight + m.waiters[m.gate.generation]
      && r.isScanning == m.isScanning && r.devices == m.devices
  {
  }

  /** Any other adapter state installs a fresh unresolved gate and stops a running scan. */
  lemma OtherStateClosesGate(m: Monitor, state: string, stop: Outcome)
    requires state != PoweredOn
    ensures var r := Step(m, StateChange(state, stop));
      && r.gate == Gate(m.gate.generation + 1, false)
      && r.out == m.out + [AdapterStateChange(state)]
      && r.waiters == m.waiters
      && (m.isScanning ==> r.calls == m.calls + [StopScan] && r.isScanning == stop.Failed?)
      && (!m.isScanning ==> r.calls == m.calls && !r.isScanning)
  {
  }

  /** The gate generation never decreases. */
  lemma GenerationMonotone(m: Monitor, e: Event)
    ensures m.gate.generation <= Step(m, e).gate.generation
  {
  }

  /** An attempt parked on a replaced gate is never released by any event. */
  lemma StaleWaitersStayParked(m: Monitor, e: Event, g: nat)
    requires g < m.gate.generation
    ensures Step(m, e).waiters[g] >= m.waiters[g]
  {
  }

  lemma {:induction false} StaleWaitersStayParkedForever(m: Monitor, events: seq<Event>, g: nat)
    requires g < m.gate.generation
    ensures Run(m, events).waiters[g] >= m.waiters[g]
    decreases |events|
  {
    if |events| > 0 {
      StaleWaitersStayParked(m, events[0], g);
      GenerationMonotone(m, events[0]);
      StaleWaitersStayParkedForever(Step(m, events[0]), events[1..], g);
    }
  }

  // ---------------------------------------------------------------------------
  // Start and stop outcomes

  /** A start request while scanning, or an attempt with nothing requested, changes nothing and calls nothing. */
  lemma StartGuard(m: Monitor)
    ensures m.isScanning ==> Step(m, RequestScan) == m.(scanRequested := true)
    ensures !m.scanRequested ==> Step(m, Wake) == m
  {
  }

  /** A settled start: success sets the flag; failure leaves it and emits exactly one classified error. */
  lemma StartOutcomes(m: Monitor, f: StartFailure)
    requires m.inFlight > 0
    ensures Step(m, ScanStartSucceeded).isScanning
    ensures var r := Step(m, ScanStartFailed(f));
      && r.isScanning == m.isScanning
      && r.out == m.out + [Error(StartErrorMessage(f))]
      && r.calls == m.calls
  {
  }

  /** A successful stop leaves the monitor not scanning, and a second stop is then a no-op. */
  lemma StopThenStopIsNoOp(m: Monitor, stop: Outcome)
    ensures !StopScanning(m, Ok).isScanning
    ensures StopScanning(StopScanning(m, Ok), stop) == StopScanning(m, Ok)
  {
  }

  /** The missing-adapter message wins when both codes appear; each code alone picks its message. */
  lemma ScanErrorExamples()
    ensures ClassifyScanError("ENODEV, EPERM") == NoAdapterMessage
    ensures ClassifyScanError("EPERM") == PermissionMessage
    ensures ClassifyScanError("busy") == "busy"
  {
    assert Text.OccursAt("ENODEV, EPERM", "ENODEV", 0);
    assert Text.OccursAt("EPERM", "EPERM", 0);
  }

  // ---------------------------------------------------------------------------
  // Registry

  /** Advertisements for an id already registered change nothing: a device is announced once. */
  lemma RepeatedDiscoveryIsIgnored(m: Monitor, p: Peripheral, c: ConnectOutcome, p2: Peripheral, c2: ConnectOutcome)
    requires p.connectable && p.id !in m.devices && p2.id == p.id
    ensures var r := Step(m, Discover(p, c));
      && Step(r, Discover(p2, c2)) == r
      && |r.devices| == |m.devices| + 1
  {
  }

  /** A heart-rate notification for a subscribed session stores the decoded value and re-emits exactly one snapshot. */
  lemma HeartRateNotificationForwarded(m: Monitor, id: string, payload: seq<Byte>)
    requires id in m.devices && m.devices[id].heartRateSubscribed && ParseHeartRate(payload).Some?
    ensures var r := Step(m, HeartRateNotification(id, payload));
      && r.devices == m.devices[id := m.devices[id].(data := m.devices[id].data.(heartRate := ParseHeartRate(payload).value))]
      && r.out == m.out + [DeviceDataEvent(r.devices[id].data)]
  {
    var step := HandleHeartRateData(m.devices[id], payload).value;
    var stored := Store(m, id, step.device);
    assert Relay(stored, id, step.events) == Relay(stored.(out := m.out + [DeviceDataEvent(step.device.data)]), id, []);
  }

  /** A heart-rate buffer too short for its format, or one for an unknown or unsubscribed id, changes nothing. */
  lemma UnusableHeartRateIgnored(m: Monitor, id: string, payload: seq<Byte>)
    requires ParseHeartRate(payload).None? || id !in m.devices || !m.devices[id].heartRateSubscribed
    ensures Step(m, HeartRateNotification(id, payload)) == m
  {
  }

  /** An empty battery buffer, or one for an unknown or unsubscribed id, changes nothing. */
  lemma UnusableBatteryIgnored(m: Monitor, id: string, payload: seq<Byte>)
    requires |payload| == 0 || id !in m.devices || !m.devices[id].batterySubscribed
    ensures Step(m, BatteryNotification(id, payload)) == m
  {
  }

  /** A battery notification re-emits exactly one snapshot; only a percentage in 0..100 is stored. */
  lemma BatteryNotificationForwarded(m: Monitor, id: string, payload: seq<Byte>)
    requires id in m.devices && m.devices[id].batterySubscribed && |payload| > 0
    ensures var r := Step(m, BatteryNotification(id, payload));
      && id in r.devices
      && r.out == m.out + [DeviceDataEvent(r.devices[id].data)]
      && (payload[0] <= 100 ==> r.devices == m.devices[id := m.devices[id].(data := m.devices[id].data.(battery := Some(payload[0])))])
      && (payload[0] > 100 ==> r.devices == m.devices)
  {
    var step := HandleBatteryData(m.devices[id], payload);
    var stored := Store(m, id, step.device);
    assert Relay(stored, id, step.events) == Relay(stored.(out := m.out + [DeviceDataEvent(step.device.data)]), id, []);
    assert payload[0] > 100 ==> stored.devices == m.devices;
  }

  /** A tick reaches only a session whose timer runs, and changes its rssi and nothing else. */
  lemma RssiTickUpdatesOnlyRunningTimers(m: Monitor, id: string, dbm: int)
    ensures var r := Step(m, RssiTick(id, dbm));
      && (id in m.devices && m.devices[id].rssiTimer ==>
            && r.devices.Keys == m.devices.Keys
            && r.devices[id].data.rssi == NormalizeRssi(dbm)
            && r.devices[id] == m.devices[id].(data := m.devices[id].data.(rssi := NormalizeRssi(dbm)))
            && (forall k :: k in m.devices && k != id ==> r.devices[k] == m.devices[k])
            && r.out == m.out && r.calls == m.calls)
      && (id !in m.devices || !m.devices[id].rssiTimer ==> r == m)
  {
  }

  /** Once the disconnect handler has stopped a session's timer, ticks for it change nothing. */
  lemma StoppedTimerIgnoresTicks(m: Monitor, id: string, d: Device, dbm: int)
    requires id in m.devices
    requires m.devices[id] == HandleDisconnect(d).device
             || (d.disconnectListener && m.devices[id] == LinkDropped(d).device)
             || (IsConnected(d) && d.disconnectListener && m.devices[id] == RequestDisconnect(d, true).device)
    ensures Step(m, RssiTick(id, dbm)) == m
  {
  }

  /** The radio's scanStart and scanStop are re-emitted as they are, and change nothing else. */
  lemma RadioScanEventsRelayed(m: Monitor)
    ensures Step(m, RadioScanStarted) == m.(out := m.out + [ScanStart])
    ensures Step(m, RadioScanStopped) == m.(out := m.out + [ScanStop])
  {
  }

  /**
   * A sensor whose battery subscription is rejected is reported as an error
   * yet stays registered with its heart-rate subscription, so its heart-rate
   * notifications are still forwarded.
   */
  lemma PartialSubscriptionKeepsStreaming(m: Monitor, p: Peripheral, cs: seq<Characteristic>, payload: seq<Byte>)
    requires p.connectable && p.id !in m.devices
    requires FindCharacteristic(cs, HeartRateMeasurementUuid).Some?
    requires cs[FindCharacteristic(cs, HeartRateMeasurementUuid).value].subscribe.Ok?
    requires SubscribeFails(cs, BatteryLevelUuid)
    requires ParseHeartRate(payload).Some?
    ensures var r := Step(m, Discover(p, Discovered(cs)));
      && r.out == m.out + [DeviceConnected(p.id), Error(cs[FindCharacteristic(cs, BatteryLevelUuid).value].subscribe.message)]
      && p.id in r.devices && r.devices[p.id].heartRateSubscribed && !r.devices[p.id].batterySubscribed
      && Step(r, HeartRateNotification(p.id, payload)).out == r.out + [DeviceDataEvent(Step(r, HeartRateNotification(p.id, payload)).devices[p.id].data)]
  {
    BatterySubscribeFailureKeepsHeartRate(NewDevice(p), cs);
    var r := Step(m, Discover(p, Discovered(cs)));
    HeartRateNotificationForwarded(r, p.id, payload);
  }

  /** Losing a device twice is losing it once. */
  lemma DeviceDisconnectIdempotent(m: Monitor, id: string)
    ensures HandleDeviceDisconnect(HandleDeviceDisconnect(m, id), id) == HandleDeviceDisconnect(m, id)
    ensures id !in HandleDeviceDisconnect(m, id).devices
  {
  }

  /** A link drop for a session whose listener is installed removes it and announces it once. */
  lemma LinkDropRemovesListenedDevice(m: Monitor, id: string)
    requires id in m.devices && m.devices[id].disconnectListener
    ensures var r := Step(m, PeripheralDisconnected(id));
      && r.devices == m.devices - {id}
      && r.out == m.out + [DeviceDisconnected(id)]
  {
  }

  /** A session whose connect failed before the link came up has no listener: a link drop leaves it registered. */
  lemma FailedLinkStaysRegistered(m: Monitor, p: Peripheral, msg: string)
    requires p.connectable && p.id !in m.devices
    ensures var r := Step(Step(m, Discover(p, LinkFailed(msg))), PeripheralDisconnected(p.id));
      && p.id in r.devices
      && Step(m, Discover(p, LinkFailed(msg))).out == m.out + [DeviceConnected(p.id), Error(msg)]
  {
  }

  /** Cleanup always leaves an empty registry, and asks only linked sessions to disconnect. */
  lemma CleanupEmptiesRegistry(m: Monitor, stop: Outcome, drops: seq<string>)
    ensures Step(m, Cleanup(stop, drops)).devices == map[]
    ensures forall c :: c in Step(m, Cleanup(stop, drops)).calls[|m.calls|..] && c.DisconnectPeripherals? ==>
      forall id :: id in c.ids ==> id in m.devices && IsConnected(m.devices[id])
  {
  }

  // ---------------------------------------------------------------------------
  // Cleanup's own disconnects

  /** A session whose disconnection its own listener announces: a live link and the listener installed. */
  ghost predicate Listening(m: Monitor, id: string) {
    id in m.devices && IsConnected(m.devices[id]) && m.devices[id].disconnectListener
  }

  /** Everything `after` emitted beyond `before.out` announces a listening session of `before` in `drops`, now gone. */
  ghost predicate OnlyAnnouncements(before: Monitor, drops: seq<string>, after: Monitor) {
    forall i :: |before.out| <= i < |after.out| ==>
      after.out[i].DeviceDisconnected? && after.out[i].id in drops && Listening(before, after.out[i].id)
      && after.out[i].id !in after.devices
  }

  /** Every listening session of `before` in `drops` is announced in what `after` emitted beyond `before.out`. */
  ghost predicate AnnouncesEvery(before: Monitor, drops: seq<string>, after: Monitor)
    requires |before.out| <= |after.out|
  {
    forall id :: id in drops && Listening(before, id) ==> DeviceDisconnected(id) in after.out[|before.out|..]
  }

  /** No two entries of `s` from index `from` on are equal. */
  ghost predicate Distinct(s: seq<Emitted>, from: nat) {
    forall i, j :: from <= i < j < |s| ==> s[i] != s[j]
  }

  /**
   * What `after` emitted beyond `before.out` announces exactly the sessions
   * of `before` that were listening and whose links are in `drops`, each once.
   */
  ghost predicate AnnouncesDrops(before: Monitor, drops: seq<string>, after: Monitor) {
    && |before.out| <= |after.out|
    && OnlyAnnouncements(before, drops, after)
    && AnnouncesEvery(before, drops, after)
    && Distinct(after.out, |before.out|)
  }

  /** One dropped link: a listening session is announced and removed; any other session stays, not listening. */
  lemma DisconnectOneEffect(m: Monitor, id0: string)
    ensures var m1 := DisconnectOne(m, id0);
      && m1.devices.Keys <= m.devices.Keys
      && (forall id :: id in m.devices && id != id0 ==> id in m1.devices && m1.devices[id] == m.devices[id])
      && (Listening(m, id0) ==> m1.out == m.out + [DeviceDisconnected(id0)] && id0 !in m1.devices)
      && (!Listening(m, id0) ==> m1.out == m.out && !Listening(m1, id0))
  {
  }

  /** Everything the dropped links emit announces a listening session among them, which has left the registry. */
  lemma {:induction false} DisconnectAllEmitsAnnouncements(m: Monitor, drops: seq<string>)
    ensures OnlyAnnouncements(m, drops, DisconnectAll(m, drops))
    decreases |drops|
  {
    if |drops| > 0 {
      var m1 := DisconnectOne(m, drops[0]);
      var r := DisconnectAll(m1, drops[1..]);
      DisconnectAllEmitsAnnouncements(m1, drops[1..]);
      assert OnlyAnnouncements(m1, drops[1..], r);
      DisconnectOneEffect(m, drops[0]);
      forall i | |m.out| <= i < |r.out|
        ensures r.out[i].DeviceDisconnected? && r.out[i].id in drops && Listening(m, r.out[i].id) && r.out[i].id !in r.devices
      {
        if i < |m1.out| {
          assert r.out[i] == m1.out[i] == DeviceDisconnected(drops[0]);
        } else {
          assert r.out[i].id in drops[1..] && Listening(m1, r.out[i].id);
          assert r.out[i].id != drops[0];
        }
      }
    }
  }

  /** Every listening session whose link drops is announced. */
  lemma {:induction false} DisconnectAllAnnouncesEvery(m: Monitor, drops: seq<string>)
    ensures AnnouncesEvery(m, drops, DisconnectAll(m, drops))
    decreases |drops|
  {
    if |drops| > 0 {
      var m1 := DisconnectOne(m, drops[0]);
      var r := DisconnectAll(m1, drops[1..]);
      DisconnectAllAnnouncesEvery(m1, drops[1..]);
      assert AnnouncesEvery(m1, drops[1..], r);
      DisconnectOneEffect(m, drops[0]);
      forall id | id in drops && Listening(m, id)
        ensures DeviceDisconnected(id) in r.out[|m.out|..]
      {
        if id == drops[0] {
          assert r.out[|m.out|..][0] == m1.out[|m.out|] == DeviceDisconnected(id);
        } else {
          assert id in drops[1..] && Listening(m1, id);
          var k :| 0 <= k < |r.out[|m1.out|..]| && r.out[|m1.out|..][k] == DeviceDisconnected(id);
          assert r.out[|m.out|..][k + |m1.out| - |m.out|] == DeviceDisconnected(id);
        }
      }
    }
  }

  /** No session is announced twice. */
  lemma {:induction false} DisconnectAllAnnouncesOnce(m: Monitor, drops: seq<string>)
    ensures Distinct(DisconnectAll(m, drops).out, |m.out|)
    decreases |drops|
  {
    if |drops| > 0 {
      var m1 := DisconnectOne(m, drops[0]);
      var r := DisconnectAll(m1, drops[1..]);
      DisconnectAllAnnouncesOnce(m1, drops[1..]);
      assert Distinct(r.out, |m1.out|);
      DisconnectAllEmitsAnnouncements(m1, drops[1..]);
      assert OnlyAnnouncements(m1, drops[1..], r);
      DisconnectOneEffect(m, drops[0]);
      forall i, j | |m.out| <= i < j < |r.out|
        ensures r.out[i] != r.out[j]
      {
        if i < |m1.out| {
          assert r.out[i] == m1.out[i] == DeviceDisconnected(drops[0]);
          assert Listening(m1, r.out[j].id);
        }
      }
    }
  }

  /**
   * Cleanup announces deviceDisconnected for exactly the sessions that were
   * listening for their link and whose link dropped, each once, before the
   * registry is emptied.
   */
  lemma CleanupAnnouncesDrops(m: Monitor, stop: Outcome, drops: seq<string>)
    ensures Step(m, Cleanup(stop, drops)).out[..|m.out|] == m.out
    ensures AnnouncesDrops(m, drops, Step(m, Cleanup(stop, drops)))
  {
    var m1 := StopScanning(m, stop);
    var ids := LinkedIds(m1.devices);
    var m2 := m1.(calls := m1.calls + (if ids == {} then [] else [DisconnectPeripherals(ids)]));
    DisconnectAllEmitsAnnouncements(m2, drops);
    DisconnectAllAnnouncesEvery(m2, drops);
    DisconnectAllAnnouncesOnce(m2, drops);
    assert m2.out == m.out && m2.devices == m.devices;
    assert Step(m, Cleanup(stop, drops)).out == DisconnectAll(m2, drops).out;
  }

  // ---------------------------------------------------------------------------
  // Scenarios

  /** Adapter ready first, then a request: one heart-rate start command, and scanning once it succeeds. */
  lemma PowerOnThenRequest()
    ensures var m := Step(Step(Init(), StateChange(PoweredOn, Ok)), RequestScan);
      && m.calls == [StartScan(["180D"], true)]
      && Step(m, ScanStartSucceeded).isScanning
  {
  }

  /** A request before `poweredOn` issues nothing and is not scanning; `poweredOn` then releases it. */
  lemma RequestBeforePowerOn()
    ensures var m := Step(Init(), RequestScan);
      && m.calls == [] && !m.isScanning && m.waiters == multiset{0}
      && Step(m, StateChange(PoweredOn, Ok)).calls == [HeartRateScan]
  {
  }

  /** With no pending flag, two requests before the first start settles issue two start commands. */
  lemma DuplicateRequestsIssueTwoStarts()
    ensures Step(Step(Step(Init(), StateChange(PoweredOn, Ok)), RequestScan), RequestScan).calls
      == [HeartRateScan, HeartRateScan]
  {
  }

  /** A request parked before an intermediate non-ready state is lost: the later `poweredOn` issues nothing. */
  lemma ParkedRequestLostAcrossReset()
    ensures var m := Step(Step(Step(Init(), RequestScan), StateChange("poweredOff", Ok)), StateChange(PoweredOn, Ok));
      && m.calls == [] && m.waiters == multiset{0} && m.gate.ready && !m.isScanning
  {
  }

  /** A power cycle stops a running scan and `poweredOn` alone does not resume it. */
  lemma PowerCycleDoesNotResume()
    ensures var scanning := Step(Step(Step(Init(), StateChange(PoweredOn, Ok)), RequestScan), ScanStartSucceeded);
      var m := Step(Step(scanning, StateChange("poweredOff", Ok)), StateChange(PoweredOn, Ok));
      && scanning.isScanning
      && !m.isScanning && m.calls == [HeartRateScan, StopScan]
  {
  }
}

=== FILE: text.dfy ===
/** Character-level string helpers used by characteristic lookup and scan-error classification. */
module Text {

  /** Lower-casing of one character. Only ASCII letters change, which covers the hexadecimal uuids compared here. */
  function Lower(c: char): char {
    if 'A' <= c <= 'Z' then (c as int + 32) as char else c
  }

  function LowerString(s: string): (r: string)
    ensures |r| == |s|
    ensures forall i :: 0 <= i < |s| ==> r[i] == Lower(s[i])
  {
    seq(|s|, i requires 0 <= i < |s| => Lower(s[i]))
  }

  /** `a.toLowerCase() === b.toLowerCase()` */
  predicate EqualsIgnoreCase(a: string, b: string) {
    LowerString(a) == LowerString(b)
  }

  /** Two strings are equal ignoring case exactly when they have the same length and agree letter by letter after lower-casing. */
  lemma EqualsIgnoreCaseCharwise(a: string, b: string)
    ensures EqualsIgnoreCase(a, b) <==> |a| == |b| && forall i :: 0 <= i < |a| ==> Lower(a[i]) == Lower(b[i])
  {
    if |a| == |b| && forall i :: 0 <= i < |a| ==> Lower(a[i]) == Lower(b[i]) {
      assert forall i :: 0 <= i < |a| ==> LowerString(a)[i] == LowerString(b)[i];
    }
  }

  predicate StartsWith(s: string, prefix: string) {
    |prefix| <= |s| && s[..|prefix|] == prefix
  }

  /** `sub` occurs in `s` starting at index `i`. */
  ghost predicate OccursAt(s: string, sub: string, i: int) {
    0 <= i && i + |sub| <= |s| && s[i..i + |sub|] == sub
  }

  /** `s.includes(sub)`: true exactly when `sub` occurs somewhere in `s`. */
  function Contains(s: string, sub: string): (r: bool)
    ensures r <==> exists i :: OccursAt(s, sub, i)
    decreases |s|
  {
    if StartsWith(s, sub) then
      assert OccursAt(s, sub, 0);
      true
    else if |s| == 0 then
      false
    else
      var rest := Contains(s[1..], sub);
      ShiftOccurrence(s, sub);
      rest
  }

  /** When `sub` does not start `s`, its occurrences in `s` are those in `s[1..]`, shifted by one. */
  lemma ShiftOccurrence(s: string, sub: string)
    requires |s| > 0 && !StartsWith(s, sub)
    ensures (exists i :: OccursAt(s, sub, i)) <==> (exists i :: OccursAt(s[1..], sub, i))
  {
    if i :| OccursAt(s, sub, i) {
      assert i != 0;
      assert s[1..][i - 1..i - 1 + |sub|] == s[i..i + |sub|];
      assert OccursAt(s[1..], sub, i - 1);
    }
    if i :| OccursAt(s[1..], sub, i) {
      assert s[1..][i..i + |sub|] == s[i + 1..i + 1 + |sub|];
      assert OccursAt(s, sub, i + 1);
    }
  }
}

=== FILE: wrappers.dfy ===
/** Small failure-carrying datatypes shared by the device and the monitor. */
module Wrappers {

  /** A value that may be absent (JavaScript `undefined`). */
  datatype Option<+T> = None | Some(value: T)

  /** The outcome of a radio command whose result carries nothing but success or an error message. */
  datatype Outcome = Ok | Failed(message: string)
}
